=== FILE: README.md ===
# HostBill-style billing dashboard — a Dafny model of its core

This project models the core of a single-page billing dashboard for a web-hosting
business. The dashboard shows customers, subscriptions, hosting plans, invoices and
metered usage, and it has a simulated payment gateway in front of Stripe (card) and
GoCardless (direct debit). The model covers three parts:

- **The payment service.** This covers routing a customer to a provider, the two
  simulated adapters, the facade that charges and retries, mandate creation,
  cancellation and status polling. Each `Math.random()` is a `draw` parameter in
  [0, 1). Each `Date.now()` / `new Date()` is a `now` parameter in milliseconds.
- **The five in-memory stores.** These are subscriptions, customers, hosting plans,
  invoices and usage. The four keyed stores share one generic model (`Store`):
  `create` appends under `max(Id) + 1` and forces some fields, `update`
  shallow-merges into the first record with the Id, and `delete` splices that record
  out. The usage store is keyed by the pair (`subscriptionId`, `period`).
- **The pure logic inside the screens.** This covers the subscription table's search,
  filter and row actions, and the invoice list's search, filter, "Mark Paid" and
  number display. It covers the customer cards' statistics and search, and the
  customer dialog. It covers the dashboard counters and metric cards, the
  recent-activity feed (collect, sort newest first, keep ten), the customer edit
  form, and the status badge's lookup.

A JavaScript object is modelled as a `Record`: a numeric `Id` plus a map from
property names to `Value`s. Missing properties are `None`. Dates are integer
milliseconds. Results that can throw are `Result`s whose error carries the thrown
message. Every operation is a pure function from the old state to the new state and
its result.

The code has no subscription lifecycle component: nothing retries, renews or
suspends a subscription on its own. The next billing date of a new card subscription
or debit mandate is always the clock plus 2592000000 ms (thirty days), whatever the
billing cycle; `PaymentService.MandateIgnoresSubscriptionData` states this.

## Model

| member | source | states |
|---|---|---|
| `PaymentService.PreferredProvider` | src/services/api/paymentService.js:11-17 | GoCardless exactly when the customer asks for direct debit or is in the EU; Stripe otherwise, including when both fields are missing |
| `PaymentService.RouterReadsOnlyMethodAndRegion` | src/services/api/paymentService.js:13 | customers that agree on `paymentMethod` and `region` are routed to the same provider, whatever else differs |
| `PaymentService.ProcessStripePayment` | src/services/api/paymentService.js:36-54 | succeeds exactly when the draw exceeds 0.1; a success is completed at once in USD for the requested amount, with id "stripe_" and the time; a failure throws the insufficient-funds message |
| `PaymentService.ProcessGoCardlessPayment` | src/services/api/paymentService.js:57-75 | succeeds exactly when the draw exceeds 0.05, and then only as pending; the transaction id is "gc_" and the time; a failure throws the invalid-mandate message |
| `PaymentService.TransactionIdCarriesTime` | src/services/api/paymentService.js:45 | the digits after "stripe_" in a card transaction id parse back to the time of the charge |
| `PaymentService.ProcessSubscriptionPayment` | src/services/api/paymentService.js:20-33 | the charge goes through the routed provider with that provider's success threshold and error message; it is completed exactly when the provider is Stripe |
| `PaymentService.DebitNeverCompletes` | src/services/api/paymentService.js:57-75 | a customer routed to direct debit never gets a completed charge, only a pending one |
| `PaymentService.RetryPayment` | src/services/api/paymentService.js:120-128 | a retry succeeds under exactly the routed provider's threshold, for the same provider and amount in USD, completed for Stripe and pending for GoCardless, and otherwise fails with that provider's message |
| `PaymentService.RetryIsSameCharge` | src/services/api/paymentService.js:120-128 | a retry gives exactly the result the first charge gives with the same draw and clock |
| `PaymentService.CreateStripeSubscription` | src/services/api/paymentService.js:94-104 | a card subscription is active at once, with id "sub_stripe_" and the time, next billed thirty days (2592000000 ms) later |
| `PaymentService.CreateGoCardlessSubscription` | src/services/api/paymentService.js:107-117 | a debit mandate waits for customer approval, with id "sub_gc_" and the time, next billed thirty days later |
| `PaymentService.CreateSubscription` | src/services/api/paymentService.js:78-91 | the subscription is created with the routed provider; it is active for Stripe and awaiting approval for GoCardless, with the next bill always thirty days out |
| `PaymentService.MandateIgnoresSubscriptionData` | src/services/api/paymentService.js:94-117 | the created subscription does not depend on the subscription data, so a yearly plan is also billed again in thirty days |
| `PaymentService.CancelSubscription` | src/services/api/paymentService.js:131-140 | cancellation always succeeds with status cancelled, stamped now |
| `PaymentService.CancelIgnoresTarget` | src/services/api/paymentService.js:131-140 | two cancellations at the same moment report the same thing, whatever subscription and method they name |
| `PaymentService.GetPaymentStatus` | src/services/api/paymentService.js:143-153 | the poll echoes the transaction id; the status is completed, pending, failed or cancelled for draws in the four quarters of [0, 1) respectively |
| `Store.IndexOf` | src/services/api/subscriptionService.js:32 | the position of the first record with the Id, or none exactly when no record has it |
| `Store.GetAll` | src/services/api/subscriptionService.js:8-11 | a copy of the store with the same records in the same order |
| `Store.GetById` | src/services/api/subscriptionService.js:13-16 | the first record with the Id, or nothing (not an error) exactly when no record has it |
| `Store.MaxId` | src/services/api/subscriptionService.js:22 | an upper bound on every Id that is itself some record's Id when the store is not empty |
| `Store.NextId` | src/services/api/subscriptionService.js:22 | the next Id exceeds every Id in the store by at least one and is one more than some record's Id; 1 on an empty store |
| `Store.NextIdAgreesWhenNonEmpty` | src/services/api/subscriptionService.js:22 | on a non-empty store the corrected next Id equals `Math.max(...ids) + 1` computed over JavaScript numbers |
| `Store.MathMaxFinite` | src/services/api/subscriptionService.js:22 | `Math.max` of the Ids of a non-empty store is the largest Id |
| `Store.EmptyStoreIdsCollide` | src/services/api/subscriptionService.js:22 | `NextIdAsWritten`, the `Math.max(...ids) + 1` of the source: on an empty store it is -Infinity, and the next create computes -Infinity again |
| `Store.Create` | src/services/api/hostingPlanService.js:18-26 | appends one record whose Id is above every existing Id; the forced fields win over the caller's, the caller's other fields are kept; unique Ids stay unique |
| `Store.Update` | src/services/api/hostingPlanService.js:28-36 | fails with the store's message exactly when no record has the Id; otherwise only the first such record is replaced by the shallow merge, which is returned |
| `Store.Delete` | src/services/api/hostingPlanService.js:38-46 | fails exactly when no record has the Id; otherwise the first such record is removed and returned, and the store shrinks by one |
| `Store.CreateThenGet` | src/services/api/subscriptionService.js:13-28 | a record just created is what `getById` returns for its Id |
| `Store.UpdateKeepsIds` | src/services/api/subscriptionService.js:30-38 | an update whose patch has no Id keeps Ids unique, and `getById` then returns the merged record |
| `Store.PatchIdCanDuplicate` | src/services/api/subscriptionService.js:34 | a patch that carries an Id overwrites the record's Id and can leave two records with the same Id |
| `Store.DeleteRemovesId` | src/services/api/subscriptionService.js:40-48 | in a store with unique Ids, after a delete no record has the Id, `getById` finds nothing, and the rest stay unique |
| `SubscriptionService.Create` | src/services/api/subscriptionService.js:18-28 | appends a subscription with the next Id, `startDate` now and status forced to "active", keeping the caller's other fields |
| `SubscriptionService.Update` | src/services/api/subscriptionService.js:30-38 | throws "Subscription not found" exactly when the Id is absent; otherwise merges into the first match |
| `SubscriptionService.Delete` | src/services/api/subscriptionService.js:40-48 | throws "Subscription not found" exactly when the Id is absent; otherwise removes and returns the first match |
| `CustomerService.Create` | src/services/api/customerService.js:18-28 | appends a customer with the next Id, `createdAt` now and status "active", keeping the caller's other fields |
| `CustomerService.Update` | src/services/api/customerService.js:30-38 | throws "Customer not found" exactly when the Id is absent; otherwise merges into the first match |
| `CustomerService.Delete` | src/services/api/customerService.js:40-48 | throws "Customer not found" exactly when the Id is absent; otherwise removes and returns the first match |
| `HostingPlanService.Create` | src/services/api/hostingPlanService.js:18-26 | appends the plan as given under the next Id, forcing no other field |
| `HostingPlanService.Update` | src/services/api/hostingPlanService.js:28-36 | throws "Hosting plan not found" exactly when the Id is absent; otherwise merges into the first match |
| `HostingPlanService.Delete` | src/services/api/hostingPlanService.js:38-46 | throws "Hosting plan not found" exactly when the Id is absent; otherwise removes and returns the first match |
| `InvoiceService.Create` | src/services/api/invoiceService.js:18-27 | appends an invoice with the next Id and status forced to "pending", keeping the caller's other fields |
| `InvoiceService.Update` | src/services/api/invoiceService.js:29-37 | throws "Invoice not found" exactly when the Id is absent; otherwise merges into the first match |
| `InvoiceService.Delete` | src/services/api/invoiceService.js:39-47 | throws "Invoice not found" exactly when the Id is absent; otherwise removes and returns the first match |
| `UsageService.GetAll` | src/services/api/usageService.js:8-11 | a copy of the usage records in order |
| `UsageService.GetBySubscriptionId` | src/services/api/usageService.js:13-16 | exactly the records of the subscription, each as often as it is stored, in stored order |
| `UsageService.CreatedUsageListed` | src/services/api/usageService.js:13-26 | after a create, the subscription's listing is its earlier listing followed by the new record |
| `UsageService.Create` | src/services/api/usageService.js:18-26 | appends the caller's record with `period` overwritten by the current month, with no check that the pair is new |
| `UsageService.Update` | src/services/api/usageService.js:28-38 | throws "Usage record not found" exactly when no record has both the subscription and the period; otherwise merges into the first such record |
| `UsageService.DuplicateKeyShadowed` | src/services/api/usageService.js:18-38 | creating the same usage twice in a month stores two records under one key, and an update then reaches only the first |
| `Billing.SumSplits` | src/components/organisms/CustomerGrid.jsx:49 | a sum of amounts is the sum over the records a predicate keeps plus the sum over the rest |
| `SubscriptionTable.FilterSubscriptions` | src/components/organisms/SubscriptionTable.jsx:76-87 | the shown rows are exactly the stored rows, in order and each as often as stored, that pass both the search and the status filter |
| `SubscriptionTable.StatusFilterMeaning` | src/components/organisms/SubscriptionTable.jsx:84 | the filter "all" hides nothing by status; any other filter shows only rows with exactly that status |
| `SubscriptionTable.UnresolvedRowHidden` | src/components/organisms/SubscriptionTable.jsx:77-82 | a row whose customer and plan are both unknown is never shown, whatever the term |
| `SubscriptionTable.EmptyTermMatchesNamedCustomer` | src/components/organisms/SubscriptionTable.jsx:80 | with an empty term, every row whose customer has a name passes the search |
| `SubscriptionTable.OfferedActions` | src/components/organisms/SubscriptionTable.jsx:229-261 | Retry shows exactly for failed payments, Suspend exactly for active rows, Activate exactly for suspended rows, and never both of the last two |
| `SubscriptionTable.ManualTransitionRule` | src/components/organisms/SubscriptionTable.jsx:242-261 | the status buttons only move active to suspended and suspended to active |
| `SubscriptionTable.HandleStatusChange` | src/components/organisms/SubscriptionTable.jsx:52-62 | with an unknown Id nothing changes; otherwise the store is updated, every row with the Id gets the new status and keeps all its other properties, and other rows are untouched |
| `SubscriptionTable.HandlerAcceptsAnyStatus` | src/components/organisms/SubscriptionTable.jsx:52-62 | the handler itself enforces no transition rule: a cancelled row can be set active |
| `SubscriptionTable.HandlePaymentRetryAsWritten` | src/components/organisms/SubscriptionTable.jsx:64-74 | as written, the retry always fails with the missing-method TypeError and leaves the rows as they were |
| `SubscriptionTable.RetryNeverUpdatesRow` | src/components/organisms/SubscriptionTable.jsx:66 | even a failed-payment row, the only kind offering Retry, is never updated by it |
| `SubscriptionTable.HandlePaymentRetry` | src/components/organisms/SubscriptionTable.jsx:64-74 | a successful retry replaces every row with the Id by the returned subscription and leaves the others; a failure changes nothing and reports the message |
| `SubscriptionTable.PaymentMethodLabel` | src/components/organisms/SubscriptionTable.jsx:219-225 | the label is "Card" (credit-card icon) exactly for Stripe and "Bank" (building icon) for anything else |
| `SubscriptionTable.LabelFollowsRouter` | src/components/organisms/SubscriptionTable.jsx:219-225 | a subscription carrying the provider name the gateway created it with is labelled "Card" exactly when its customer is routed to Stripe and "Bank" exactly when routed to GoCardless |
| `InvoiceList.FilterInvoices` | src/components/organisms/InvoiceList.jsx:60-70 | the shown invoices are exactly those, in order and each as often as stored, that pass both the search and the status filter |
| `InvoiceList.EmptySearchShowsAll` | src/components/organisms/InvoiceList.jsx:63-67 | with an empty term and the filter "all", every invoice is shown |
| `InvoiceList.SearchByIdFinds` | src/components/organisms/InvoiceList.jsx:65 | searching for an invoice's Id finds it, whatever its customer |
| `InvoiceList.MarkPaidOffered` | src/components/organisms/InvoiceList.jsx:178-182 | "Mark Paid" shows exactly for pending invoices |
| `InvoiceList.HandleStatusChange` | src/components/organisms/InvoiceList.jsx:48-58 | with an unknown Id nothing changes; otherwise the store is updated, every row with the Id gets the new status and keeps all its other properties, and other rows are untouched |
| `InvoiceList.MarkPaidIsOneShot` | src/components/organisms/InvoiceList.jsx:178-182 | after "Mark Paid" the invoice is paid and no longer offers the button |
| `InvoiceList.DisplayId` | src/components/organisms/InvoiceList.jsx:151 | "#" followed by the decimal Id, left-padded with zeros to at least four characters |
| `InvoiceList.ShortIdsAlign` | src/components/organisms/InvoiceList.jsx:151 | every Id from 0 to 9999 displays as exactly five characters |
| `InvoiceList.LongIdUnpadded` | src/components/organisms/InvoiceList.jsx:151 | an Id of 1000 or more is shown without padding |
| `InvoiceList.DisplayIdRoundTrip` | src/components/organisms/InvoiceList.jsx:151 | the digits after "#" parse back to the Id for every non-negative Id |
| `CustomerGrid.CustomerSubs` | src/components/organisms/CustomerGrid.jsx:47 | exactly the customer's subscriptions, in order and each as often as stored |
| `CustomerGrid.GetCustomerStats` | src/components/organisms/CustomerGrid.jsx:46-57 | the total is the number of the customer's subscriptions, the active count the number of those that are active, and the revenue the sum of all their amounts; the status is "active" exactly when some subscription of theirs is active, "inactive" otherwise |
| `CustomerGrid.RevenueCountsInactive` | src/components/organisms/CustomerGrid.jsx:49 | the revenue figure is the active subscriptions' amounts plus the inactive ones' |
| `CustomerGrid.FilterCustomers` | src/components/organisms/CustomerGrid.jsx:59-63 | the shown customers are exactly those, in order and each as often as stored, whose name, e-mail or company contains the term |
| `CustomerGrid.SearchIgnoresCase` | src/components/organisms/CustomerGrid.jsx:59-63 | searching with a term and with its lower-case form shows the same customers |
| `CustomerDetailModal.Render` | src/components/organisms/CustomerDetailModal.jsx:8-13 | nothing renders exactly when the dialog is closed or has no customer; otherwise it lists exactly the customer's subscriptions and the active ones among them, each as often as stored, totals the listed amounts, and badges "active" exactly when some are active |
| `CustomerDetailModal.AgreesWithCustomerCard` | src/components/organisms/CustomerDetailModal.jsx:11-53 | the dialog's counts, revenue and badge equal the customer card's |
| `DashboardStats.RevenueAppend` | src/components/organisms/DashboardStats.jsx:27-32 | `MonthlyRevenue` is the sum of shares: one more subscription adds its full amount when active and monthly, a twelfth of it when active and yearly, and nothing otherwise |
| `DashboardStats.LoadStats` | src/components/organisms/DashboardStats.jsx:27-52 | the counters are the number of customers, of active subscriptions, of customers created after thirty days ago (future dates included), of pending invoices, and of invoices overdue or pending past their due date (a null due date being the epoch); the revenue is the monthly revenue; overdue invoices lie between the marked-overdue count and that count plus the pending one |
| `DashboardStats.PendingInvoicesCard` | src/components/organisms/DashboardStats.jsx:90-96 | the pending card turns negative, and shows "N overdue", exactly when something is overdue |
| `DashboardStats.TotalCustomersCard` | src/components/organisms/DashboardStats.jsx:69-75 | the customer card mentions "+N this month" exactly when there are new customers |
| `RecentActivity.ActivityFor` | src/components/organisms/RecentActivity.jsx:37-45 | an entry's id is the kind's prefix and the record's Id; customers' entries are always "active", the others carry the record's status |
| `RecentActivity.ActivitiesOf` | src/components/organisms/RecentActivity.jsx:34-47 | a collection contributes an entry exactly for each record dated after seven days ago, future dates included |
| `RecentActivity.ActivitiesOfExact` | src/components/organisms/RecentActivity.jsx:34-47 | the entries are those of the recent records, one for each, in the records' order |
| `RecentActivity.CollectMeaning` | src/components/organisms/RecentActivity.jsx:30-78 | `Collect` concatenates the three collections' entries: every recent subscription, invoice and customer has an entry, and every entry is recent |
| `RecentActivity.ActivityIdsDistinct` | src/components/organisms/RecentActivity.jsx:38-69 | two entries share an id only if they have the same kind and the same record Id |
| `RecentActivity.Insert` | src/components/organisms/RecentActivity.jsx:81 | inserting into a newest-first list keeps it newest first and adds exactly the one entry |
| `RecentActivity.SortNewestFirst` | src/components/organisms/RecentActivity.jsx:81 | the sort result is newest first and a rearrangement of its input |
| `RecentActivity.PrefixIsNewest` | src/components/organisms/RecentActivity.jsx:81-83 | in a newest-first list, nothing after a prefix is newer than anything in it |
| `RecentActivity.Newest` | src/components/organisms/RecentActivity.jsx:81-83 | keeps min(10, n) entries, newest first, drawn from the input, and none left out is newer than one kept |
| `RecentActivity.LoadActivities` | src/components/organisms/RecentActivity.jsx:19-83 | the feed has at most ten entries, newest first, all drawn from the collected ones |
| `RecentActivity.FeedWithinWindow` | src/components/organisms/RecentActivity.jsx:31-67 | every entry in the feed is dated after seven days ago; there is no upper bound at the present |
| `RecentActivity.FutureDueInvoiceShown` | src/components/organisms/RecentActivity.jsx:50-62 | an invoice due at or after the present is recent, so it reaches the feed |
| `RecentActivity.FeedIsNewest` | src/components/organisms/RecentActivity.jsx:81-83 | no collected entry left out of the feed is newer than one shown |
| `RecentActivity.ShortFeedComplete` | src/components/organisms/RecentActivity.jsx:83 | with ten or fewer recent entries the feed shows all of them |
| `CustomerEditModal.InitialForm` | src/components/organisms/CustomerEditModal.jsx:10-22 | the form starts with the customer's string name, e-mail, phone, company and five address parts, blank where missing |
| `CustomerEditModal.ValidateForm` | src/components/organisms/CustomerEditModal.jsx:26-41 | the name is flagged exactly when blank; a blank e-mail is "required"; a non-blank one is "invalid" exactly when it does not match the e-mail pattern |
| `CustomerEditModal.Validate` | src/components/organisms/CustomerEditModal.jsx:29-37 | the two checks of the validator on the raw name and e-mail strings |
| `CustomerEditModal.ValidIff` | src/components/organisms/CustomerEditModal.jsx:26-41 | a form passes exactly when the name is not blank and the e-mail matches the pattern |
| `CustomerEditModal.HandleSubmit` | src/components/organisms/CustomerEditModal.jsx:43-62 | a save is attempted, with the customer's Id and the form, exactly when the form is valid; the modal closes exactly when the save also succeeds; each path has its notice |
| `CustomerEditModal.BlankNameNeverSaved` | src/components/organisms/CustomerEditModal.jsx:29-49 | a form with a blank name is never saved |
| `CustomerEditModal.ChangeForm` | src/components/organisms/CustomerEditModal.jsx:64-79 | `HandleChange` applies this and `ClearError` together: a plain field is set as text; a dotted field sets one entry of the group named by its first segment, keeping its siblings; nothing else changes |
| `CustomerEditModal.ClearError` | src/components/organisms/CustomerEditModal.jsx:81-84 | the field's error is cleared and every other error kept |
| `CustomerEditModal.ThirdSegmentIgnored` | src/components/organisms/CustomerEditModal.jsx:66 | "a.b.c" writes where "a.b" writes: only the first two segments count |
| `CustomerEditModal.ValidationReadsNameAndEmail` | src/components/organisms/CustomerEditModal.jsx:26-41 | editing any field other than name and e-mail leaves validation unchanged |
| `EmailPattern.ShapeIffRegex` | src/components/organisms/CustomerEditModal.jsx:35 | the local test decides exactly whether some substring matches the pattern's three non-space runs |
| `EmailPattern.ShapeSurvivesContext` | src/components/organisms/CustomerEditModal.jsx:35 | the pattern is unanchored: text around an address that matches does not stop the match |
| `Text.TrimEmptyIffBlank` | src/components/organisms/CustomerEditModal.jsx:29-33 | a string trims to empty exactly when it is all whitespace |
| `Text.SplitJoin` | src/components/organisms/CustomerEditModal.jsx:66 | splitting on a separator gives back the separator-free parts it was joined from |
| `Records.DateOf` | src/components/organisms/DashboardStats.jsx:42 | `new Date(v)` in milliseconds: a timestamp is itself, a number is clipped and truncated toward zero, `null` is the epoch, and a missing property is an invalid date |
| `Records.Merge` | src/services/api/subscriptionService.js:34 | `{ ...record, ...patch }`: the patch's properties, its Id included, win and the record's others are kept |
| `Records.MergeIdempotent` | src/services/api/subscriptionService.js:34 | applying the same patch twice gives what applying it once gives |
| `Rows.Lookup` | src/components/organisms/SubscriptionTable.jsx:77-78 | the found record is the first in the table that the row refers to; nothing is found exactly when no record is referred to |
| `Rows.SetStatusWhere` | src/components/organisms/SubscriptionTable.jsx:55-57 | every row with the Id gets the new status and keeps its other properties; every other row is untouched |
| `Text.Lower` | src/components/organisms/SubscriptionTable.jsx:80-82 | lower-casing keeps the length, turns each upper-case ASCII letter into its lower-case letter and changes nothing else |
| `Text.Includes` | src/components/organisms/SubscriptionTable.jsx:80-82 | `includes` holds exactly when the term occurs at some position |
| `Text.Trim` | src/components/organisms/CustomerEditModal.jsx:29-33 | the trimmed string is the original with a whitespace prefix and a whitespace suffix removed, and starts and ends with a non-space |
| `Text.Split` | src/components/organisms/CustomerEditModal.jsx:66 | the parts contain no separator and join back to the string; there are two or more exactly when the separator occurs |
| `Text.PadStart` | src/components/organisms/InvoiceList.jsx:151 | the padded string ends with the original, is at least the requested length, and is filled with the pad character in front |
| `Decimal.IntToString` | src/components/organisms/InvoiceList.jsx:65 | `toString` of an integer: non-empty, starting with "-" exactly for negatives, plain digits otherwise |
| `Decimal.IntToStringInjective` | src/components/organisms/RecentActivity.jsx:38 | distinct Ids render to distinct strings |
| `StatusBadge.Lookup` | src/components/molecules/StatusBadge.jsx:43 | a known status (after lower-casing) selects its own entry; any other falls back to the "active" entry |
| `StatusBadge.Render` | src/components/molecules/StatusBadge.jsx:45-50 | the badge shows the looked-up variant and label, and the icon exactly when asked for |
| `StatusBadge.CaseInsensitive` | src/components/molecules/StatusBadge.jsx:43 | a status and its lower-case form render the same badge |
| `StatusBadge.LabelRoundTrip` | src/components/molecules/StatusBadge.jsx:5-43 | each entry's label, used as a status, selects that same entry |
| `StatusBadge.InactiveShowsActive` | src/components/molecules/StatusBadge.jsx:43 | the status "inactive", which the customer screens produce, renders as the green "Active" badge |
| `StatusBadge.UnknownStatusesAgree` | src/components/molecules/StatusBadge.jsx:43 | all unknown statuses render like "active" |

## Left out

- Asynchrony and delays: every service call sleeps before answering. The model treats each call as one atomic step and ignores interleaving between screens.
- Toasts, console logging and loading/error screens are not modelled. The exception is the messages a handler returns, which the model carries.
- API keys read from the environment, and the JSON files that seed each store, are not modelled. The stores are parameters.
- Numbers are exact reals and integers, not IEEE doubles, so the yearly `/ 12`, `toFixed(2)` and `toLocaleString` are not rounded.
- Calendar: "30 days ago" and "7 days ago" are exact multiples of 24 hours, and dates are milliseconds. ISO formatting is not modelled. A `null` date is the epoch and a number is a millisecond count, as `new Date` reads them. One `now` stands for every clock reading in a call, so where the source reads `Date.now()` twice (the id and the next billing date of a new card subscription or debit mandate) the model assumes both readings are equal.
- Records.DateOf does not parse date strings: a string date counts as an invalid date, which is neither recent, new nor past due. JavaScript would parse an ISO string to its instant.
- UsageService.Create takes the current "YYYY-MM" month as a string instead of slicing the ISO clock reading.
- Text.Lower, Text.Trim and Text.IsSpace: text handling is ASCII only. `trim()`, `\S` and `toLowerCase()` see ASCII whitespace and ASCII letters; Unicode spaces and case mappings are out of scope.
- StatusBadge.Render takes `showIcon` as an explicit argument; the component's default of `true` is left to the caller.
- StatusBadge.Lookup does not model statuses that name `Object.prototype` properties (such as "constructor"). In JavaScript those find a non-config value.
- CustomerEditModal.InitialForm keeps only string properties. A non-string truthy name would be kept as is and make `trim()` throw.
- CustomerEditModal.ChangeForm treats a non-group parent as empty. JavaScript would spread a string into per-character keys.
- CustomerGrid.FilterCustomers treats a missing or non-string name or e-mail, or a present non-string company, as no match. JavaScript's `toLowerCase()` throws a TypeError there and the grid does not render.
- SubscriptionTable.FilterSubscriptions treats a present but non-string customer name, customer e-mail or plan name as no match. `?.toLowerCase()` throws a TypeError on such a value and the table fails to render.
- InvoiceList.FilterInvoices treats a present but non-string customer name or e-mail as no match, where `?.toLowerCase()` throws a TypeError.
- PaymentService: the gateways' HTTP calls are simulated in the source and are modelled as their simulation. The adapters' unused `subscriptionId`/`customer` parameters are kept only as parameters.
- Retry bookkeeping, renewal, failure reasons and gateway cancellation on delete are not modelled because the code has none of them.
- CustomerGrid.GetCustomerStats, CustomerDetailModal.Render, Billing.SumAmounts, Billing.SumSplits, DashboardStats.MonthlyRevenue and DashboardStats.LoadStats require every amount they add to be a number. In JavaScript a missing amount makes the sum NaN and a string amount turns it into string concatenation; those inputs are not modelled.
- RecentActivity: the entries' descriptions, icons and type tags are left out. Building an invoice's description calls `amount.toFixed(2)`, which throws when the amount is not a number and turns the whole feed into the error screen; RecentActivity.LoadActivities still returns a feed there. `Array.prototype.sort` stability is not modelled: only "newest first" and "same entries" are stated, which every stable or unstable order meets.
- Rendering (JSX layout, animation, icons other than those named) is left out.
- SubscriptionTable.HandlePaymentRetry takes the retry's outcome as a parameter, because the subscription-level retry it calls does not exist in the source.

## Findings

| source | as written | input that shows it | evidently intended | confidence | as-written member | corrected member |
|---|---|---|---|---|---|---|
| src/services/api/subscriptionService.js:22 (same line in the customer, hosting-plan and invoice services) | `Math.max(...ids) + 1` | `create` on an empty store: `Math.max()` is -Infinity, so the record gets Id -Infinity, and the next `create` gets -Infinity again | the first record gets Id 1 and Ids stay distinct | high; not executed | `Store.EmptyStoreIdsCollide` | `Store.NextId` |
| src/components/organisms/SubscriptionTable.jsx:66 | calls `subscriptionService.retryPayment`, which the subscription service does not define | any subscription with `paymentStatus` "failed": pressing Retry always raises a TypeError, so the row is never refreshed | the retry runs and the returned subscription replaces the row | high; not executed | `SubscriptionTable.RetryNeverUpdatesRow` | `SubscriptionTable.HandlePaymentRetry` |

=== FILE: billing.dfy ===
/** Reading subscriptions as the components do: who they belong to, whether
    they are active, and what they cost. Amounts are exact reals; the
    JavaScript sums are floating point. */
module Billing {
  import opened Records
  import Seqs

  /** `sub.customerId === customerId`. */
  predicate ForCustomer(sub: Record, customerId: int) {
    RefersTo(sub, "customerId", customerId)
  }

  /** `sub.status === "active"`. */
  predicate IsActive(sub: Record) {
    FieldIs(sub, "status", Str("active"))
  }

  /** `sub.amount` is a number. */
  predicate Priced(sub: Record) {
    "amount" in sub.fields && sub.fields["amount"].Num?
  }

  function Amount(sub: Record): real
    requires Priced(sub)
  {
    sub.fields["amount"].n
  }

  predicate AllPriced(subs: seq<Record>) {
    forall i :: 0 <= i < |subs| ==> Priced(subs[i])
  }

  /** `subs.reduce((sum, sub) => sum + sub.amount, 0)`. */
  function SumAmounts(subs: seq<Record>): real
    requires AllPriced(subs)
  {
    if |subs| == 0 then 0.0 else Amount(subs[0]) + SumAmounts(subs[1..])
  }

  /** `sub.status !== "active"`. */
  predicate IsInactive(sub: Record) {
    !IsActive(sub)
  }

  /** A sum splits into the part a predicate `p` keeps and the part its
      complement `q` keeps. */
  lemma {:induction false} SumSplits(subs: seq<Record>, p: Record -> bool, q: Record -> bool)
    requires AllPriced(subs)
    requires forall x :: q(x) == !p(x)
    ensures AllPriced(Seqs.Filter(subs, p))
    ensures AllPriced(Seqs.Filter(subs, q))
    ensures SumAmounts(subs) == SumAmounts(Seqs.Filter(subs, p)) + SumAmounts(Seqs.Filter(subs, q))
  {
    if |subs| > 0 {
      var x, rest := subs[0], subs[1..];
      SumSplits(rest, p, q);
      var fp, fq := Seqs.Filter(rest, p), Seqs.Filter(rest, q);
      if p(x) {
        assert Seqs.Filter(subs, p) == [x] + fp && Seqs.Filter(subs, q) == fq;
        SumCons(x, fp);
      } else {
        assert Seqs.Filter(subs, q) == [x] + fq && Seqs.Filter(subs, p) == fp;
        SumCons(x, fq);
      }
    }
  }

  lemma SumCons(x: Record, rest: seq<Record>)
    requires Priced(x) && AllPriced(rest)
    ensures AllPriced([x] + rest)
    ensures SumAmounts([x] + rest) == Amount(x) + SumAmounts(rest)
  {
  }
}

=== FILE: customer_detail_modal.dfy ===
/** The customer detail dialog: the customer's subscriptions, the active
    ones among them, their total and the status badge. */
module CustomerDetailModal {
  import opened Wrappers
  import opened Records
  import opened Billing
  import Seqs
  import CustomerGrid

  datatype Detail = Detail(
    customerStats: seq<Record>,
    activeSubscriptions: seq<Record>,
    totalRevenue: real,
    badgeStatus: string)

  /** What the dialog shows; `None` when it renders nothing. */
  function Render(isOpen: bool, customer: Option<Record>, subs: seq<Record>): (r: Option<Detail>)
    requires isOpen && customer.Some? ==> CustomerGrid.CustomerPriced(subs, customer.value.id)
    ensures r.None? <==> !isOpen || customer.None?
    ensures r.Some? ==> Seqs.IsSubsequence(r.value.customerStats, subs)
    ensures r.Some? ==> forall x :: x in subs && ForCustomer(x, customer.value.id) <==> x in r.value.customerStats
    ensures r.Some? ==> multiset(r.value.customerStats) <= multiset(subs)
    ensures r.Some? ==> forall x :: x in subs && ForCustomer(x, customer.value.id) ==>
                          multiset(r.value.customerStats)[x] == multiset(subs)[x]
    ensures r.Some? ==> AllPriced(r.value.customerStats) && r.value.totalRevenue == SumAmounts(r.value.customerStats)
    ensures r.Some? ==> Seqs.IsSubsequence(r.value.activeSubscriptions, r.value.customerStats)
    ensures r.Some? ==> forall x :: x in r.value.customerStats && IsActive(x) <==> x in r.value.activeSubscriptions
    ensures r.Some? ==> multiset(r.value.activeSubscriptions) <= multiset(r.value.customerStats)
    ensures r.Some? ==> forall x :: x in r.value.customerStats && IsActive(x) ==>
                          multiset(r.value.activeSubscriptions)[x] == multiset(r.value.customerStats)[x]
    ensures r.Some? ==> (r.value.badgeStatus == "active" <==> |r.value.activeSubscriptions| > 0)
    ensures r.Some? ==> (r.value.badgeStatus == "inactive" <==> |r.value.activeSubscriptions| == 0)
  {
    if !isOpen || customer.None? then None
    else
      var mine := CustomerGrid.CustomerSubs(subs, customer.value.id);
      var active := Seqs.Filter(mine, IsActive);
      Some(Detail(mine, active, SumAmounts(mine), if |active| > 0 then "active" else "inactive"))
  }

  /** The dialog and the customer card agree on every figure. */
  lemma AgreesWithCustomerCard(customer: Record, subs: seq<Record>)
    requires CustomerGrid.CustomerPriced(subs, customer.id)
    ensures var d := Render(true, Some(customer), subs).value;
            var st := CustomerGrid.GetCustomerStats(subs, customer.id);
            |d.customerStats| == st.totalSubscriptions
            && |d.activeSubscriptions| == st.activeSubscriptions
            && d.totalRevenue == st.totalRevenue
            && d.badgeStatus == st.status
  {
  }
}

=== FILE: customer_edit_modal.dfy ===
/** The customer edit form: its initial contents, validation, submission and
    the change handler for plain and dotted (`address.city`) fields. */
module CustomerEditModal {
  import opened Wrappers
  import opened Records
  import opened Text
  import opened EmailPattern

  /** A form entry: a text input, or a group of text inputs (the address). */
  datatype FormValue = Text(text: string) | Group(entries: map<string, string>)

  type Form = map<string, FormValue>

  /** Error messages by field name; `""` is a cleared message. */
  type Errors = map<string, string>

  const TextKeys: set<string> := {"name", "email", "phone", "company"}
  const AddressKeys: set<string> := {"street", "city", "state", "zipCode", "country"}

  const NameRequired := "Name is required"
  const EmailRequired := "Email is required"
  const EmailInvalid := "Please enter a valid email"

  /** `v || ""` for a property read off a record: a string property, or `""`
      when it is missing or not a string. */
  function TextOrEmpty(v: Option<Value>): (s: string)
    ensures v.Some? && v.value.Str? ==> s == v.value.s
    ensures !(v.Some? && v.value.Str?) ==> s == ""
  {
    match v
    case Some(Str(s)) => s
    case _ => ""
  }

  /** The address property's own properties, empty when it is not an object. */
  function AddressOf(c: Record): map<string, Value> {
    if "address" in c.fields && c.fields["address"].Obj? then c.fields["address"].props else map[]
  }

  /** The form as the modal first fills it from `customer` (or blank). */
  function InitialForm(customer: Option<Record>): (f: Form)
    ensures f.Keys == TextKeys + {"address"}
    ensures forall k :: k in TextKeys ==> f[k].Text?
    ensures forall k :: k in TextKeys ==>
              f[k].text == (if customer.Some? then TextOrEmpty(Field(customer.value, k)) else "")
    ensures f["address"].Group? && f["address"].entries.Keys == AddressKeys
    ensures forall k :: k in AddressKeys ==>
              f["address"].entries[k] ==
                (if customer.Some? && k in AddressOf(customer.value)
                 then TextOrEmpty(Some(AddressOf(customer.value)[k])) else "")
  {
    var text := (k: string) => if customer.Some? then TextOrEmpty(Field(customer.value, k)) else "";
    var addr := if customer.Some? then AddressOf(customer.value) else map[];
    map k | k in TextKeys + {"address"} ::
      if k == "address"
      then Group(map a | a in AddressKeys :: if a in addr then TextOrEmpty(Some(addr[a])) else "")
      else Text(text(k))
  }

  /** Name and e-mail are text entries, as every form the modal builds has. */
  predicate WellFormed(form: Form) {
    "name" in form && form["name"].Text? && "email" in form && form["email"].Text?
  }

  predicate Blank(s: string) {
    forall i :: 0 <= i < |s| ==> IsSpace(s[i])
  }

  /** `validateForm`'s error map. */
  function ValidateForm(form: Form): (errs: Errors)
    requires WellFormed(form)
    ensures errs.Keys <= {"name", "email"}
    ensures "name" in errs <==> Blank(form["name"].text)
    ensures "name" in errs ==> errs["name"] == NameRequired
    ensures Blank(form["email"].text) ==> "email" in errs && errs["email"] == EmailRequired
    ensures !Blank(form["email"].text) ==>
              ("email" in errs <==> !RegexMatches(form["email"].text))
              && ("email" in errs ==> errs["email"] == EmailInvalid)
  {
    Validate(form["name"].text, form["email"].text)
  }

  /** The checks on the two validated entries. */
  function Validate(name: string, email: string): (errs: Errors)
    ensures errs.Keys <= {"name", "email"}
    ensures "name" in errs <==> Blank(name)
    ensures "name" in errs ==> errs["name"] == NameRequired
    ensures Blank(email) ==> "email" in errs && errs["email"] == EmailRequired
    ensures !Blank(email) ==>
              ("email" in errs <==> !RegexMatches(email))
              && ("email" in errs ==> errs["email"] == EmailInvalid)
  {
    TrimEmptyIffBlank(name);
    TrimEmptyIffBlank(email);
    ShapeIffRegex(email);
    var nameErrs: Errors := if Trim(name) == "" then map["name" := NameRequired] else map[];
    if Trim(email) == "" then nameErrs["email" := EmailRequired]
    else if !HasEmailShape(email) then nameErrs["email" := EmailInvalid]
    else nameErrs
  }

  predicate IsValid(form: Form)
    requires WellFormed(form)
  {
    |ValidateForm(form)| == 0
  }

  /** A form passes exactly when the name is not blank and the e-mail
      matches the pattern (which a blank e-mail never does). */
  lemma ValidIff(form: Form)
    requires WellFormed(form)
    ensures IsValid(form) <==> !Blank(form["name"].text) && RegexMatches(form["email"].text)
  {
  }

  /** The outcome of pressing Save: the errors shown, the save attempted (with
      the customer's `Id` and the form), whether the modal closed, and the
      notice shown. */
  datatype Submission = Submission(errors: Errors, attempt: Option<(int, Form)>, closed: bool, notice: string)

  /** `handleSubmit`; `saveSucceeds` is whether `onSave` resolves. */
  function HandleSubmit(form: Form, customerId: int, saveSucceeds: bool): (r: Submission)
    requires WellFormed(form)
    ensures r.errors == ValidateForm(form)
    ensures r.attempt.Some? <==> IsValid(form)
    ensures r.attempt.Some? ==> r.attempt.value == (customerId, form)
    ensures r.closed <==> IsValid(form) && saveSucceeds
    ensures !IsValid(form) ==> r.notice == "Please fix the errors in the form"
    ensures IsValid(form) && saveSucceeds ==> r.notice == "Customer updated successfully!"
    ensures IsValid(form) && !saveSucceeds ==> r.notice == "Failed to update customer. Please try again."
  {
    var errs := ValidateForm(form);
    if |errs| != 0 then Submission(errs, None, false, "Please fix the errors in the form")
    else if saveSucceeds then Submission(errs, Some((customerId, form)), true, "Customer updated successfully!")
    else Submission(errs, Some((customerId, form)), false, "Failed to update customer. Please try again.")
  }

  /** A form with a blank name is never saved. */
  lemma BlankNameNeverSaved(form: Form, customerId: int, saveSucceeds: bool)
    requires WellFormed(form) && Blank(form["name"].text)
    ensures HandleSubmit(form, customerId, saveSucceeds).attempt.None?
  {
  }

  /** The group a dotted field writes into: its entries, or none when the
      parent is missing or not a group. */
  function GroupEntries(form: Form, parent: string): map<string, string> {
    if parent in form && form[parent].Group? then form[parent].entries else map[]
  }

  /** The form after `handleChange(field, value)`: a dotted field sets one
      entry of the group named by its first segment (the second segment is
      the entry's key); a plain field sets a text entry. */
  function ChangeForm(form: Form, field: string, value: string): (f: Form)
    ensures '.' !in field ==>
              && f.Keys == form.Keys + {field}
              && f[field] == Text(value)
              && (forall k :: k in form && k != field ==> f[k] == form[k])
    ensures '.' in field ==>
              var parts := Split(field, '.');
              && f.Keys == form.Keys + {parts[0]}
              && f[parts[0]].Group?
              && f[parts[0]].entries.Keys == GroupEntries(form, parts[0]).Keys + {parts[1]}
              && f[parts[0]].entries[parts[1]] == value
              && (forall e :: e in GroupEntries(form, parts[0]) && e != parts[1] ==>
                    f[parts[0]].entries[e] == GroupEntries(form, parts[0])[e])
              && (forall k :: k in form && k != parts[0] ==> f[k] == form[k])
  {
    if '.' in field then
      var parts := Split(field, '.');
      form[parts[0] := Group(GroupEntries(form, parts[0])[parts[1] := value])]
    else
      form[field := Text(value)]
  }

  /** The errors after `handleChange(field, ...)`: a non-empty message on
      the field is cleared, everything else is kept. */
  function ClearError(errors: Errors, field: string): (e: Errors)
    ensures e.Keys == errors.Keys
    ensures field in errors ==> e[field] == ""
    ensures forall k :: k in errors && k != field ==> e[k] == errors[k]
  {
    if field in errors && errors[field] != "" then errors[field := ""] else errors
  }

  /** `handleChange(field, value)`: the new form and the new errors. */
  function HandleChange(form: Form, errors: Errors, field: string, value: string): (Form, Errors) {
    (ChangeForm(form, field, value), ClearError(errors, field))
  }

  /** Only the first two segments of a dotted field matter: `a.b.c` writes
      where `a.b` writes. */
  lemma ThirdSegmentIgnored(form: Form, errors: Errors, a: string, b: string, c: string, value: string)
    requires '.' !in a && '.' !in b && '.' !in c
    ensures HandleChange(form, errors, a + "." + b + "." + c, value).0 == HandleChange(form, errors, a + "." + b, value).0
  {
    var f3 := a + "." + b + "." + c;
    var f2 := a + "." + b;
    assert [a, b, c][1..] == [b, c] && [b, c][1..] == [c] && [a, b][1..] == [b];
    assert Join([b, c], '.') == b + "." + c;
    assert f3 == Join([a, b, c], '.');
    assert f2 == Join([a, b], '.');
    SplitJoin([a, b, c], '.');
    SplitJoin([a, b], '.');
    assert f3[|a|] == '.' && f2[|a|] == '.';
  }

  /** Editing any field other than the name and e-mail leaves validation
      unchanged. */
  lemma ValidationReadsNameAndEmail(form: Form, errors: Errors, field: string, value: string)
    requires WellFormed(form)
    requires field != "name" && field != "email"
    requires '.' in field ==> Split(field, '.')[0] != "name" && Split(field, '.')[0] != "email"
    ensures WellFormed(HandleChange(form, errors, field, value).0)
    ensures ValidateForm(HandleChange(form, errors, field, value).0) == ValidateForm(form)
  {
  }
}

=== FILE: customer_grid.dfy ===
/** The customer cards: per-customer subscription statistics and the
    customer search. */
module CustomerGrid {
  import opened Records
  import opened Text
  import opened Billing
  import Seqs

  datatype CustomerStats = CustomerStats(
    totalSubscriptions: nat,
    activeSubscriptions: nat,
    totalRevenue: real,
    status: string)

  /** Every subscription of the customer has a numeric amount. */
  predicate CustomerPriced(subs: seq<Record>, customerId: int) {
    forall x :: x in subs && ForCustomer(x, customerId) ==> Priced(x)
  }

  /** `subscriptions.filter(sub => sub.customerId === customerId)`. */
  function CustomerSubs(subs: seq<Record>, customerId: int): (r: seq<Record>)
    ensures Seqs.IsSubsequence(r, subs)
    ensures forall x :: x in r ==> ForCustomer(x, customerId)
    ensures forall x :: x in subs && ForCustomer(x, customerId) ==> x in r
    ensures multiset(r) <= multiset(subs)
    ensures forall x :: x in subs ==> multiset(r)[x] == if ForCustomer(x, customerId) then multiset(subs)[x] else 0
    ensures CustomerPriced(subs, customerId) ==> AllPriced(r)
  {
    Seqs.Filter(subs, (x: Record) => ForCustomer(x, customerId))
  }

  /** `getCustomerStats`. */
  function GetCustomerStats(subs: seq<Record>, customerId: int): (st: CustomerStats)
    requires CustomerPriced(subs, customerId)
    ensures st.activeSubscriptions <= st.totalSubscriptions <= |subs|
    ensures st.totalSubscriptions == 0 <==> forall i :: 0 <= i < |subs| ==> !ForCustomer(subs[i], customerId)
    ensures st.activeSubscriptions > 0 <==>
              exists i :: 0 <= i < |subs| && ForCustomer(subs[i], customerId) && IsActive(subs[i])
    ensures st.status == "active" <==> st.activeSubscriptions > 0
    ensures st.status == "inactive" <==> st.activeSubscriptions == 0
    ensures st.totalSubscriptions == 0 ==> st.totalRevenue == 0.0
    ensures st.totalSubscriptions == Seqs.Count(subs, (x: Record) => ForCustomer(x, customerId))
    ensures st.activeSubscriptions == Seqs.Count(subs, (x: Record) => ForCustomer(x, customerId) && IsActive(x))
    ensures st.totalRevenue == SumAmounts(CustomerSubs(subs, customerId))
  {
    var mine := CustomerSubs(subs, customerId);
    var active := Seqs.Filter(mine, IsActive);
    CustomerCounts(subs, customerId);
    CustomerStats(|mine|, |active|, SumAmounts(mine), if |active| > 0 then "active" else "inactive")
  }

  /** The card's two counts over the whole subscription list. */
  lemma CustomerCounts(subs: seq<Record>, customerId: int)
    ensures |CustomerSubs(subs, customerId)| == Seqs.Count(subs, (x: Record) => ForCustomer(x, customerId))
    ensures |Seqs.Filter(CustomerSubs(subs, customerId), IsActive)|
            == Seqs.Count(subs, (x: Record) => ForCustomer(x, customerId) && IsActive(x))
    ensures |Seqs.Filter(CustomerSubs(subs, customerId), IsActive)| <= |CustomerSubs(subs, customerId)| <= |subs|
    ensures |CustomerSubs(subs, customerId)| == 0 <==>
              forall i :: 0 <= i < |subs| ==> !ForCustomer(subs[i], customerId)
    ensures |Seqs.Filter(CustomerSubs(subs, customerId), IsActive)| > 0 <==>
              exists i :: 0 <= i < |subs| && ForCustomer(subs[i], customerId) && IsActive(subs[i])
  {
    var mine := CustomerSubs(subs, customerId);
    var active := Seqs.Filter(mine, IsActive);
    assert |active| > 0 ==> active[0] in active;
    assert |mine| > 0 ==> mine[0] in mine;
    Seqs.FilterFilter(subs, (x: Record) => ForCustomer(x, customerId), IsActive,
                      (x: Record) => ForCustomer(x, customerId) && IsActive(x));
  }

  /** The revenue figure counts every subscription of the customer, active
      or not: it is the active part plus the rest. */
  lemma RevenueCountsInactive(subs: seq<Record>, customerId: int)
    requires CustomerPriced(subs, customerId)
    ensures var mine := CustomerSubs(subs, customerId);
            AllPriced(Seqs.Filter(mine, IsActive)) &&
            AllPriced(Seqs.Filter(mine, IsInactive)) &&
            GetCustomerStats(subs, customerId).totalRevenue ==
              SumAmounts(Seqs.Filter(mine, IsActive)) + SumAmounts(Seqs.Filter(mine, IsInactive))
  {
    var mine := CustomerSubs(subs, customerId);
    assert GetCustomerStats(subs, customerId).totalRevenue == SumAmounts(mine);
    SumSplits(mine, IsActive, IsInactive);
  }

  /** `o?.[key]?.toLowerCase().includes(lowerTerm)` on the customer itself. */
  predicate FieldIncludes(c: Record, key: string, lowerTerm: string) {
    TextField(c, key).Some? && Includes(Lower(TextField(c, key).value), lowerTerm)
  }

  /** The search test: the lower-cased term in the lower-cased name, e-mail or
      company. */
  predicate MatchesSearch(c: Record, term: string) {
    FieldIncludes(c, "name", Lower(term))
    || FieldIncludes(c, "email", Lower(term))
    || FieldIncludes(c, "company", Lower(term))
  }

  /** `filteredCustomers`. */
  function FilterCustomers(customers: seq<Record>, term: string): (r: seq<Record>)
    ensures Seqs.IsSubsequence(r, customers)
    ensures forall c :: c in r ==> MatchesSearch(c, term)
    ensures forall c :: c in customers && MatchesSearch(c, term) ==> c in r
    ensures multiset(r) <= multiset(customers)
    ensures forall c :: c in customers ==> multiset(r)[c] == if MatchesSearch(c, term) then multiset(customers)[c] else 0
  {
    Seqs.Filter(customers, (c: Record) => MatchesSearch(c, term))
  }

  /** The search ignores case: an upper-case term finds what its lower-case
      form finds. */
  lemma SearchIgnoresCase(customers: seq<Record>, term: string)
    ensures FilterCustomers(customers, term) == FilterCustomers(customers, Lower(term))
  {
    LowerIdempotent(term);
    assert forall c :: MatchesSearch(c, term) == MatchesSearch(c, Lower(term));
    SameFilter(customers, term, Lower(term));
  }

  lemma {:induction false} SameFilter(customers: seq<Record>, t1: string, t2: string)
    requires forall c :: MatchesSearch(c, t1) == MatchesSearch(c, t2)
    ensures FilterCustomers(customers, t1) == FilterCustomers(customers, t2)
  {
    if |customers| > 0 {
      SameFilter(customers[1..], t1, t2);
    }
  }
}

=== FILE: customer_service.dfy ===
/** The customer service: the keyed store of customers. */
module CustomerService {
  import opened Wrappers
  import opened Records
  import Store

  const NotFound := "Customer not found"

  /** `create`: the caller's fields, the next Id, `createdAt` set to
      `now` and `status` forced to "active". */
  function Create(s: Store.Table, data: Patch, now: int): (r: (Store.Table, Record))
    ensures r.0 == s + [r.1]
    ensures forall i :: 0 <= i < |s| ==> s[i].id < r.1.id
    ensures |s| > 0 ==> exists i :: 0 <= i < |s| && s[i].id + 1 == r.1.id
    ensures r.1.fields.Keys == data.fields.Keys + {"createdAt", "status"}
    ensures FieldIs(r.1, "status", Str("active"))
    ensures FieldIs(r.1, "createdAt", Time(now))
    ensures forall k :: k in data.fields && k != "createdAt" && k != "status" ==> r.1.fields[k] == data.fields[k]
    ensures Store.UniqueIds(s) ==> Store.UniqueIds(r.0)
  {
    Store.Create(s, data, map["createdAt" := Time(now), "status" := Str("active")])
  }

  /** `update`: merge the patch into the first customer with the Id, or
      throw "Customer not found" and leave the store as it was. */
  function Update(s: Store.Table, id: int, patch: Patch): (r: Result<(Store.Table, Record)>)
    ensures r.Err? <==> Store.Absent(s, id)
    ensures r.Err? ==> r.message == "Customer not found"
    ensures r.Ok? ==> Store.UpdatedAt(s, id, patch, r.value.0, r.value.1)
  {
    Store.Update(s, id, patch, NotFound)
  }

  /** `delete`: remove and return the first customer with the Id, or throw
      "Customer not found" and leave the store as it was. */
  function Delete(s: Store.Table, id: int): (r: Result<(Store.Table, Record)>)
    ensures r.Err? <==> Store.Absent(s, id)
    ensures r.Err? ==> r.message == "Customer not found"
    ensures r.Ok? ==> Store.DeletedAt(s, id, r.value.0, r.value.1)
    ensures r.Ok? ==> |r.value.0| == |s| - 1 && r.value.1.id == id
  {
    Store.Delete(s, id, NotFound)
  }
}

=== FILE: dashboard_stats.dfy ===
/** The dashboard's four metric cards and the counters behind them. `now` is
    the clock reading in milliseconds; "the last 30 days" is taken as exactly
    thirty times 24 hours. */
module DashboardStats {
  import opened Wrappers
  import opened Records
  import opened Billing
  import Seqs
  import Decimal

  const ThirtyDaysMs: int := 30 * 24 * 60 * 60 * 1000

  datatype Stats = Stats(
    totalCustomers: nat,
    activeSubscriptions: nat,
    monthlyRevenue: real,
    newCustomers: nat,
    pendingInvoices: nat,
    overdueInvoices: nat)

  datatype Metric = Metric(title: string, value: nat, change: Option<string>, changeType: string)

  predicate IsMonthly(sub: Record) {
    FieldIs(sub, "billingCycle", Str("monthly"))
  }

  predicate IsYearly(sub: Record) {
    FieldIs(sub, "billingCycle", Str("yearly"))
  }

  /** The amount is read only for monthly and yearly subscriptions. */
  predicate SharePriced(sub: Record) {
    (IsMonthly(sub) || IsYearly(sub)) ==> Priced(sub)
  }

  /** What one subscription adds to the monthly figure. */
  function MonthlyShare(sub: Record): real
    requires SharePriced(sub)
  {
    if IsMonthly(sub) then Amount(sub)
    else if IsYearly(sub) then Amount(sub) / 12.0
    else 0.0
  }

  function SumShares(subs: seq<Record>): real
    requires forall x :: x in subs ==> SharePriced(x)
  {
    if |subs| == 0 then 0.0 else MonthlyShare(subs[0]) + SumShares(subs[1..])
  }

  /** The active subscriptions are priced wherever their amount is read. */
  predicate RevenuePriced(subs: seq<Record>) {
    forall x :: x in subs && IsActive(x) ==> SharePriced(x)
  }

  /** The reduce over `activeSubscriptions` in `loadStats`. */
  function MonthlyRevenue(subs: seq<Record>): (r: real)
    requires RevenuePriced(subs)
    ensures |subs| == 0 ==> r == 0.0
  {
    SumShares(Seqs.Filter(subs, IsActive))
  }

  /** The share sum splits over concatenation. */
  lemma {:induction false} SumSharesAppend(a: seq<Record>, b: seq<Record>)
    requires forall x :: x in a ==> SharePriced(x)
    requires forall x :: x in b ==> SharePriced(x)
    ensures forall x :: x in a + b ==> SharePriced(x)
    ensures SumShares(a + b) == SumShares(a) + SumShares(b)
  {
    if |a| > 0 {
      assert (a + b)[1..] == a[1..] + b;
      SumSharesAppend(a[1..], b);
    } else {
      assert a + b == b;
    }
  }

  /** The revenue figure, one subscription at a time: a further subscription
      adds its full amount when it is active and billed monthly, a twelfth of
      its amount when active and billed yearly, and nothing otherwise. */
  lemma RevenueAppend(subs: seq<Record>, x: Record)
    requires RevenuePriced(subs)
    requires IsActive(x) ==> SharePriced(x)
    ensures RevenuePriced(subs + [x])
    ensures MonthlyRevenue(subs + [x]) == MonthlyRevenue(subs) +
              (if !IsActive(x) then 0.0
               else if FieldIs(x, "billingCycle", Str("monthly")) then Amount(x)
               else if FieldIs(x, "billingCycle", Str("yearly")) then Amount(x) / 12.0
               else 0.0)
  {
    var f := Seqs.Filter(subs, IsActive);
    Seqs.FilterAppend(subs, [x], IsActive);
    assert [x][1..] == [];
    var g := Seqs.Filter([x], IsActive);
    assert g == if IsActive(x) then [x] else [];
    SumSharesAppend(f, g);
    assert Seqs.Filter(subs + [x], IsActive) == f + g;
  }

  /** A customer created strictly after thirty days ago; a future creation
      date counts too. */
  predicate IsNewCustomer(c: Record, now: int) {
    DateOf(c, "createdAt").Some? && DateOf(c, "createdAt").value > now - ThirtyDaysMs
  }

  predicate IsPending(inv: Record) {
    FieldIs(inv, "status", Str("pending"))
  }

  predicate IsMarkedOverdue(inv: Record) {
    FieldIs(inv, "status", Str("overdue"))
  }

  /** Overdue, or still pending with its due date strictly in the past; a
      `null` due date is the epoch, so such a pending invoice is overdue. */
  predicate IsOverdue(inv: Record, now: int) {
    IsMarkedOverdue(inv)
    || (IsPending(inv) && DateOf(inv, "dueDate").Some? && now > DateOf(inv, "dueDate").value)
  }

  /** `loadStats`. */
  function LoadStats(subs: seq<Record>, customers: seq<Record>, invoices: seq<Record>, now: int): (st: Stats)
    requires RevenuePriced(subs)
    ensures st.totalCustomers == |customers|
    ensures st.newCustomers <= st.totalCustomers
    ensures st.newCustomers == 0 <==> forall c :: c in customers ==> !IsNewCustomer(c, now)
    ensures st.activeSubscriptions == Seqs.Count(subs, IsActive) <= |subs|
    ensures st.activeSubscriptions == 0 ==> st.monthlyRevenue == 0.0
    ensures st.pendingInvoices == Seqs.Count(invoices, IsPending) <= |invoices|
    ensures st.overdueInvoices <= Seqs.Count(invoices, IsMarkedOverdue) + st.pendingInvoices
    ensures st.overdueInvoices >= Seqs.Count(invoices, IsMarkedOverdue)
    ensures st.newCustomers == Seqs.Count(customers, (c: Record) => IsNewCustomer(c, now))
    ensures st.overdueInvoices == Seqs.Count(invoices, (inv: Record) => IsOverdue(inv, now))
    ensures st.monthlyRevenue == MonthlyRevenue(subs)
  {
    var isNew := (c: Record) => IsNewCustomer(c, now);
    var overdue := (inv: Record) => IsOverdue(inv, now);
    Seqs.CountOrBound(invoices, IsMarkedOverdue, IsPending, overdue);
    Seqs.CountMonotone(invoices, IsMarkedOverdue, overdue);
    var joined := Seqs.Filter(customers, isNew);
    assert |joined| > 0 ==> joined[0] in joined;
    Stats(
      |customers|,
      Seqs.Count(subs, IsActive),
      MonthlyRevenue(subs),
      Seqs.Count(customers, isNew),
      Seqs.Count(invoices, IsPending),
      Seqs.Count(invoices, overdue))
  }

  /** The "Pending Invoices" card: red exactly when something is overdue. */
  function PendingInvoicesCard(st: Stats): (m: Metric)
    ensures m.value == st.pendingInvoices
    ensures m.changeType == "negative" <==> st.overdueInvoices > 0
    ensures m.changeType == "positive" <==> st.overdueInvoices == 0
    ensures m.change.Some? <==> st.overdueInvoices > 0
    ensures m.change.Some? ==> m.change.value == Decimal.NatToString(st.overdueInvoices) + " overdue"
  {
    Metric(
      "Pending Invoices",
      st.pendingInvoices,
      if st.overdueInvoices != 0 then Some(Decimal.NatToString(st.overdueInvoices) + " overdue") else None,
      if st.overdueInvoices > 0 then "negative" else "positive")
  }

  /** The "Total Customers" card: mentions this month's sign-ups when there
      are any. */
  function TotalCustomersCard(st: Stats): (m: Metric)
    ensures m.value == st.totalCustomers && m.changeType == "positive"
    ensures m.change.Some? <==> st.newCustomers > 0
    ensures m.change.Some? ==> m.change.value == "+" + Decimal.NatToString(st.newCustomers) + " this month"
  {
    Metric(
      "Total Customers",
      st.totalCustomers,
      if st.newCustomers != 0 then Some("+" + Decimal.NatToString(st.newCustomers) + " this month") else None,
      "positive")
  }
}

=== FILE: decimal.dfy ===
/** Decimal rendering of JavaScript integers (`n.toString()` and template
    interpolation) together with the digit parser that inverts it. */
module Decimal {
  import Text

  predicate IsDigit(c: char) {
    '0' <= c <= '9'
  }

  predicate AllDigits(s: string) {
    forall i :: 0 <= i < |s| ==> IsDigit(s[i])
  }

  function DigitChar(d: nat): (c: char)
    requires d < 10
    ensures IsDigit(c)
  {
    ('0' as int + d) as char
  }

  function DigitValue(c: char): (d: nat)
    requires IsDigit(c)
    ensures d < 10 && DigitChar(d) == c
  {
    c as int - '0' as int
  }

  /** The shortest decimal numeral of `n`. */
  function NatToString(n: nat): (s: string)
    ensures |s| > 0 && AllDigits(s)
    ensures s[0] == '0' <==> n == 0
    ensures n == 0 ==> s == "0"
  {
    if n < 10 then [DigitChar(n)] else NatToString(n / 10) + [DigitChar(n % 10)]
  }

  /** The value of a string of decimal digits (the empty string reads as 0). */
  function ParseDigits(s: string): nat
    requires AllDigits(s)
  {
    if |s| == 0 then 0 else ParseDigits(s[..|s| - 1]) * 10 + DigitValue(s[|s| - 1])
  }

  /** Parsing undoes rendering. */
  lemma {:induction false} ParseNatToString(n: nat)
    ensures ParseDigits(NatToString(n)) == n
  {
    if n >= 10 {
      var s := NatToString(n);
      assert s[..|s| - 1] == NatToString(n / 10);
      ParseNatToString(n / 10);
    }
  }

  /** Leading zeros do not change the value, so a zero-padded numeral still
      reads back as the original number. */
  lemma {:induction false} ParseLeadingZeros(k: nat, s: string)
    requires AllDigits(s)
    ensures AllDigits(Text.Repeat('0', k) + s)
    ensures ParseDigits(Text.Repeat('0', k) + s) == ParseDigits(s)
  {
    var z := Text.Repeat('0', k);
    if |s| == 0 {
      assert z + s == z;
      ParseZeros(k);
    } else {
      var t := z + s;
      assert t[..|t| - 1] == z + s[..|s| - 1];
      ParseLeadingZeros(k, s[..|s| - 1]);
    }
  }

  lemma {:induction false} ParseZeros(k: nat)
    ensures AllDigits(Text.Repeat('0', k))
    ensures ParseDigits(Text.Repeat('0', k)) == 0
  {
    if k > 0 {
      var z := Text.Repeat('0', k);
      assert z[..k - 1] == Text.Repeat('0', k - 1);
      ParseZeros(k - 1);
    }
  }

  /** `String(i)` for an integer: a minus sign before the magnitude when
      negative. */
  function IntToString(i: int): (s: string)
    ensures |s| > 0
    ensures s[0] == '-' <==> i < 0
    ensures i >= 0 ==> s == NatToString(i)
  {
    if i < 0 then "-" + NatToString(-i) else NatToString(i)
  }

  /** Distinct integers render to distinct strings. */
  lemma IntToStringInjective(a: int, b: int)
    requires IntToString(a) == IntToString(b)
    ensures a == b
  {
    if a < 0 {
      assert IntToString(a)[1..] == NatToString(-a);
      assert IntToString(b)[1..] == NatToString(-b);
      ParseNatToString(-a);
      ParseNatToString(-b);
    } else {
      ParseNatToString(a);
      ParseNatToString(b);
    }
  }
}

=== FILE: email_pattern.dfy ===
/** The unanchored regular expression `\S+@\S+\.\S+` used to validate e-mail
    addresses, with `\S` read as "not ASCII whitespace". `RegexMatches` is
    the regular expression's own meaning (some substring matches the three
    runs); `HasEmailShape` is the small local test the validator evaluates;
    `ShapeIffRegex` proves they agree. */
module EmailPattern {
  import opened Text

  /** `s[a..b]` is a non-empty run of non-whitespace characters. */
  predicate NonSpaceRun(s: string, a: int, b: int) {
    0 <= a < b <= |s| && forall i :: a <= i < b ==> !IsSpace(s[i])
  }

  /** `s[a..b]` matches `\S+@\S+\.\S+` with the `@` at `j` and the `.` at `k`. */
  ghost predicate MatchSpan(s: string, a: int, j: int, k: int, b: int) {
    && 0 <= j < |s| && s[j] == '@'
    && 0 <= k < |s| && s[k] == '.'
    && NonSpaceRun(s, a, j)
    && NonSpaceRun(s, j + 1, k)
    && NonSpaceRun(s, k + 1, b)
  }

  /** `/\S+@\S+\.\S+/.test(s)`: some substring of `s` matches. */
  ghost predicate RegexMatches(s: string) {
    exists a, j, k, b :: MatchSpan(s, a, j, k, b)
  }

  /** A non-space character right before an `@` at `j`, then non-space
      characters up to a `.` at `k` (at least one of them), then a non-space
      character right after it. */
  predicate ShapeAt(s: string, j: int, k: int) {
    && 1 <= j && j + 1 < k && k + 1 < |s|
    && s[j] == '@' && s[k] == '.'
    && !IsSpace(s[j - 1])
    && (forall i :: j < i < k ==> !IsSpace(s[i]))
    && !IsSpace(s[k + 1])
  }

  predicate HasEmailShape(s: string) {
    exists j, k | 0 <= j < k < |s| :: ShapeAt(s, j, k)
  }

  /** The local test decides exactly the regular expression. */
  lemma ShapeIffRegex(s: string)
    ensures HasEmailShape(s) <==> RegexMatches(s)
  {
    if HasEmailShape(s) {
      var j, k :| 0 <= j < k < |s| && ShapeAt(s, j, k);
      assert MatchSpan(s, j - 1, j, k, k + 2);
    }
    if RegexMatches(s) {
      var a, j, k, b :| MatchSpan(s, a, j, k, b);
      assert !IsSpace(s[j - 1]);
      assert !IsSpace(s[k + 1]);
      assert ShapeAt(s, j, k);
    }
  }

  /** The pattern is unanchored: text around a matching address does not
      stop the match. */
  lemma ShapeSurvivesContext(pre: string, s: string, post: string)
    requires HasEmailShape(s)
    ensures HasEmailShape(pre + s + post)
  {
    var j, k :| 0 <= j < k < |s| && ShapeAt(s, j, k);
    var t := pre + s + post;
    assert forall i :: 0 <= i < |s| ==> t[|pre| + i] == s[i];
    assert ShapeAt(t, |pre| + j, |pre| + k);
  }
}

=== FILE: hosting_plan_service.dfy ===
/** The hosting-plan service: the keyed store of hosting plans. */
module HostingPlanService {
  import opened Wrappers
  import opened Records
  import Store

  const NotFound := "Hosting plan not found"

  /** `create`: the caller's fields under the next Id; nothing else is
      added or defaulted. */
  function Create(s: Store.Table, data: Patch): (r: (Store.Table, Record))
    ensures r.0 == s + [r.1]
    ensures forall i :: 0 <= i < |s| ==> s[i].id < r.1.id
    ensures |s| > 0 ==> exists i :: 0 <= i < |s| && s[i].id + 1 == r.1.id
    ensures r.1.fields.Keys == data.fields.Keys
    ensures forall k :: k in data.fields ==> r.1.fields[k] == data.fields[k]
    ensures Store.UniqueIds(s) ==> Store.UniqueIds(r.0)
  {
    Store.Create(s, data, map[])
  }

  /** `update`: merge the patch into the first plan with the Id, or
      throw "Hosting plan not found" and leave the store as it was. */
  function Update(s: Store.Table, id: int, patch: Patch): (r: Result<(Store.Table, Record)>)
    ensures r.Err? <==> Store.Absent(s, id)
    ensures r.Err? ==> r.message == "Hosting plan not found"
    ensures r.Ok? ==> Store.UpdatedAt(s, id, patch, r.value.0, r.value.1)
  {
    Store.Update(s, id, patch, NotFound)
  }

  /** `delete`: remove and return the first plan with the Id, or throw
      "Hosting plan not found" and leave the store as it was. */
  function Delete(s: Store.Table, id: int): (r: Result<(Store.Table, Record)>)
    ensures r.Err? <==> Store.Absent(s, id)
    ensures r.Err? ==> r.message == "Hosting plan not found"
    ensures r.Ok? ==> Store.DeletedAt(s, id, r.value.0, r.value.1)
    ensures r.Ok? ==> |r.value.0| == |s| - 1 && r.value.1.id == id
  {
    Store.Delete(s, id, NotFound)
  }
}

=== FILE: invoice_list.dfy ===
/** The invoices table: search and status filtering, the "Mark Paid" action
    and the zero-padded invoice number. */
module InvoiceList {
  import opened Records
  import opened Text
  import Seqs
  import Decimal
  import Store
  import Rows
  import InvoiceService

  /** The search test: the lower-cased term in the customer's lower-cased name
      or e-mail, or the raw term in the invoice's decimal Id. */
  predicate MatchesSearch(inv: Record, customers: seq<Record>, term: string) {
    var customer := Rows.Lookup(customers, inv, "customerId");
    Rows.TextIncludes(customer, "name", Lower(term))
    || Rows.TextIncludes(customer, "email", Lower(term))
    || Includes(Decimal.IntToString(inv.id), term)
  }

  /** The status filter: "all" or the exact status. */
  predicate MatchesStatus(inv: Record, statusFilter: string) {
    statusFilter == "all" || FieldIs(inv, "status", Str(statusFilter))
  }

  /** `filteredInvoices`. */
  function FilterInvoices(invoices: seq<Record>, customers: seq<Record>, term: string, statusFilter: string)
    : (r: seq<Record>)
    ensures Seqs.IsSubsequence(r, invoices)
    ensures forall x :: x in r ==> MatchesSearch(x, customers, term) && MatchesStatus(x, statusFilter)
    ensures forall x :: x in invoices && MatchesSearch(x, customers, term) && MatchesStatus(x, statusFilter)
                        ==> x in r
    ensures multiset(r) <= multiset(invoices)
    ensures forall x :: x in invoices && MatchesSearch(x, customers, term) && MatchesStatus(x, statusFilter)
                        ==> multiset(r)[x] == multiset(invoices)[x]
  {
    Seqs.Filter(invoices, (x: Record) => MatchesSearch(x, customers, term) && MatchesStatus(x, statusFilter))
  }

  /** Every Id contains the empty string, so an empty search with the filter
      at "all" shows every invoice, even one whose customer is unknown. */
  lemma EmptySearchShowsAll(invoices: seq<Record>, customers: seq<Record>)
    ensures FilterInvoices(invoices, customers, "", "all") == invoices
  {
    forall x | x in invoices
      ensures MatchesSearch(x, customers, "") && MatchesStatus(x, "all")
    {
      IncludesEmpty(Decimal.IntToString(x.id));
    }
    Seqs.FilterAll(invoices, (x: Record) => MatchesSearch(x, customers, "") && MatchesStatus(x, "all"));
  }

  /** Searching for an invoice's own number finds it (status permitting). */
  lemma SearchByIdFinds(inv: Record, invoices: seq<Record>, customers: seq<Record>, statusFilter: string)
    requires inv in invoices && MatchesStatus(inv, statusFilter)
    ensures inv in FilterInvoices(invoices, customers, Decimal.IntToString(inv.id), statusFilter)
  {
  }

  /** "Mark Paid" is offered exactly for pending invoices. */
  function MarkPaidOffered(inv: Record): (b: bool)
    ensures b <==> FieldIs(inv, "status", Str("pending"))
  {
    FieldIs(inv, "status", Str("pending"))
  }

  /** `handleStatusChange`: update the store first; only if that does not
      throw, set the status on the rows with the Id. */
  function HandleStatusChange(store: Store.Table, rows: seq<Record>, id: int, newStatus: string)
    : (r: (Store.Table, seq<Record>))
    ensures Store.Absent(store, id) ==> r == (store, rows)
    ensures !Store.Absent(store, id) ==>
              r.0 == InvoiceService.Update(store, id, SetField("status", Str(newStatus))).value.0
    ensures !Store.Absent(store, id) ==> |r.1| == |rows|
    ensures !Store.Absent(store, id) ==>
              forall i :: 0 <= i < |rows| ==>
                (if rows[i].id == id then r.1[i].id == id && r.1[i].fields == rows[i].fields["status" := Str(newStatus)]
                 else r.1[i] == rows[i])
  {
    match InvoiceService.Update(store, id, SetField("status", Str(newStatus)))
    case Err(_) => (store, rows)
    case Ok((after, _)) => (after, Rows.SetStatusWhere(rows, id, newStatus))
  }

  /** Marking a pending invoice paid removes its "Mark Paid" button. */
  lemma MarkPaidIsOneShot(store: Store.Table, rows: seq<Record>, i: nat)
    requires i < |rows| && MarkPaidOffered(rows[i])
    requires !Store.Absent(store, rows[i].id)
    ensures var after := HandleStatusChange(store, rows, rows[i].id, "paid").1;
            FieldIs(after[i], "status", Str("paid")) && !MarkPaidOffered(after[i])
  {
  }

  /** The displayed number: "#" and the decimal Id left-padded with zeros to
      four characters. */
  function DisplayId(id: int): (d: string)
    ensures |d| == 1 + (if |Decimal.IntToString(id)| >= 4 then |Decimal.IntToString(id)| else 4)
    ensures d[0] == '#'
    ensures d[|d| - |Decimal.IntToString(id)|..] == Decimal.IntToString(id)
    ensures forall i :: 1 <= i < |d| - |Decimal.IntToString(id)| ==> d[i] == '0'
  {
    var n := Decimal.IntToString(id);
    var p := PadStart(n, 4, '0');
    var d := "#" + p;
    assert d[1..] == p;
    assert d[|d| - |n|..] == p[|p| - |n|..];
    d
  }

  /** Ids below 10000 all show as five characters. */
  lemma ShortIdsAlign(id: int)
    requires 0 <= id < 10000
    ensures |DisplayId(id)| == 5
  {
    NumeralLength(id);
  }

  /** An Id too long to pad is shown unchanged after the "#". */
  lemma LongIdUnpadded(id: int)
    requires id >= 1000
    ensures DisplayId(id) == "#" + Decimal.IntToString(id)
  {
    assert |Decimal.NatToString(id)| >= 4 by {
      NumeralLength(id);
    }
  }

  lemma {:induction false} NumeralLength(n: nat)
    ensures n >= 10 ==> |Decimal.NatToString(n)| >= 2
    ensures n >= 100 ==> |Decimal.NatToString(n)| >= 3
    ensures n >= 1000 ==> |Decimal.NatToString(n)| >= 4
    ensures n < 10 ==> |Decimal.NatToString(n)| == 1
    ensures n < 100 ==> |Decimal.NatToString(n)| <= 2
    ensures n < 1000 ==> |Decimal.NatToString(n)| <= 3
    ensures n < 10000 ==> |Decimal.NatToString(n)| <= 4
  {
    if n >= 10 {
      NumeralLength(n / 10);
    }
  }

  /** The number of a non-negative Id reads back as the Id. */
  lemma DisplayIdRoundTrip(id: int)
    requires id >= 0
    ensures Decimal.AllDigits(DisplayId(id)[1..])
    ensures Decimal.ParseDigits(DisplayId(id)[1..]) == id
  {
    var s := Decimal.NatToString(id);
    var padded := DisplayId(id)[1..];
    var k := |padded| - |s|;
    assert padded == Repeat('0', k) + s;
    Decimal.ParseLeadingZeros(k, s);
    Decimal.ParseNatToString(id);
  }
}

=== FILE: invoice_service.dfy ===
/** The invoice service: the keyed store of invoices. */
module InvoiceService {
  import opened Wrappers
  import opened Records
  import Store

  const NotFound := "Invoice not found"

  /** `create`: the caller's fields, the next Id and `status` forced to
      "pending". */
  function Create(s: Store.Table, data: Patch): (r: (Store.Table, Record))
    ensures r.0 == s + [r.1]
    ensures forall i :: 0 <= i < |s| ==> s[i].id < r.1.id
    ensures |s| > 0 ==> exists i :: 0 <= i < |s| && s[i].id + 1 == r.1.id
    ensures r.1.fields.Keys == data.fields.Keys + {"status"}
    ensures FieldIs(r.1, "status", Str("pending"))
    ensures forall k :: k in data.fields && k != "status" ==> r.1.fields[k] == data.fields[k]
    ensures Store.UniqueIds(s) ==> Store.UniqueIds(r.0)
  {
    Store.Create(s, data, map["status" := Str("pending")])
  }

  /** `update`: merge the patch into the first invoice with the Id, or
      throw "Invoice not found" and leave the store as it was. */
  function Update(s: Store.Table, id: int, patch: Patch): (r: Result<(Store.Table, Record)>)
    ensures r.Err? <==> Store.Absent(s, id)
    ensures r.Err? ==> r.message == "Invoice not found"
    ensures r.Ok? ==> Store.UpdatedAt(s, id, patch, r.value.0, r.value.1)
  {
    Store.Update(s, id, patch, NotFound)
  }

  /** `delete`: remove and return the first invoice with the Id, or throw
      "Invoice not found" and leave the store as it was. */
  function Delete(s: Store.Table, id: int): (r: Result<(Store.Table, Record)>)
    ensures r.Err? <==> Store.Absent(s, id)
    ensures r.Err? ==> r.message == "Invoice not found"
    ensures r.Ok? ==> Store.DeletedAt(s, id, r.value.0, r.value.1)
    ensures r.Ok? ==> |r.value.0| == |s| - 1 && r.value.1.id == id
  {
    Store.Delete(s, id, NotFound)
  }
}

=== FILE: payment_service.dfy ===
/** The payment gateway facade: a router that picks Stripe (card) or
    GoCardless (direct debit) for a customer, the two simulated gateway
    adapters, mandate creation, retry, cancellation and status polling.
    Each `Math.random()` call is a `draw` parameter in [0, 1) and each
    `Date.now()` a `now` parameter in milliseconds. */
module PaymentService {
  import opened Wrappers
  import opened Records
  import Decimal

  datatype Provider = Stripe | GoCardless

  /** The provider's name as the services spell it. */
  function ProviderName(p: Provider): string {
    match p
    case Stripe => "stripe"
    case GoCardless => "gocardless"
  }

  /** One charge as a gateway reports it. */
  datatype Payment = Payment(
    success: bool,
    transactionId: string,
    paymentMethod: Provider,
    amount: real,
    currency: string,
    status: string)

  /** A recurring subscription (card subscription or debit mandate) as a
      gateway reports it. */
  datatype Mandate = Mandate(
    success: bool,
    subscriptionId: string,
    paymentMethod: Provider,
    status: string,
    nextBilling: int)

  datatype Cancellation = Cancellation(success: bool, status: string, cancelledAt: int)

  datatype StatusReport = StatusReport(transactionId: string, status: string, updatedAt: int)

  /** Thirty days in milliseconds: `30 * 24 * 60 * 60 * 1000`. */
  const ThirtyDaysMs: int := 30 * 24 * 60 * 60 * 1000

  /** A value `Math.random()` can return. */
  predicate IsDraw(draw: real) {
    0.0 <= draw < 1.0
  }

  // ---------------------------------------------------------------------
  // Router

  /** `getPreferredPaymentMethod`: direct debit by request or for EU
      customers, card otherwise (also when the fields are missing). */
  function PreferredProvider(customer: Record): (p: Provider)
    ensures p == GoCardless <==>
              FieldIs(customer, "paymentMethod", Str("direct_debit")) || FieldIs(customer, "region", Str("EU"))
    ensures p == Stripe <==>
              !FieldIs(customer, "paymentMethod", Str("direct_debit")) && !FieldIs(customer, "region", Str("EU"))
  {
    if FieldIs(customer, "paymentMethod", Str("direct_debit")) || FieldIs(customer, "region", Str("EU")) then
      GoCardless
    else
      Stripe
  }

  /** The router looks at nothing but the customer's `paymentMethod` and
      `region`: customers that agree on those two are routed alike. */
  lemma RouterReadsOnlyMethodAndRegion(c1: Record, c2: Record)
    requires Field(c1, "paymentMethod") == Field(c2, "paymentMethod")
    requires Field(c1, "region") == Field(c2, "region")
    ensures PreferredProvider(c1) == PreferredProvider(c2)
  {
  }

  // ---------------------------------------------------------------------
  // Adapters

  /** `processStripePayment`: succeeds when the draw exceeds 0.1, settling at
      once; otherwise throws the card decline. */
  function ProcessStripePayment(subscriptionId: int, amount: real, customer: Record, draw: real, now: nat)
    : (r: Result<Payment>)
    requires IsDraw(draw)
    ensures r.Ok? <==> draw > 0.1
    ensures r.Ok? ==> r.value.success && r.value.status == "completed" && r.value.currency == "USD"
    ensures r.Ok? ==> r.value.amount == amount && r.value.paymentMethod == Stripe
    ensures r.Ok? ==> r.value.transactionId == "stripe_" + Decimal.NatToString(now)
    ensures r.Err? ==> r.message == "Stripe payment failed - insufficient funds"
  {
    if draw > 0.1 then
      Ok(Payment(true, "stripe_" + Decimal.NatToString(now), Stripe, amount, "USD", "completed"))
    else
      Err("Stripe payment failed - insufficient funds")
  }

  /** `processGoCardlessPayment`: succeeds when the draw exceeds 0.05 but only
      as `pending`, since a debit settles later; otherwise throws the mandate
      error. */
  function ProcessGoCardlessPayment(subscriptionId: int, amount: real, customer: Record, draw: real, now: nat)
    : (r: Result<Payment>)
    requires IsDraw(draw)
    ensures r.Ok? <==> draw > 0.05
    ensures r.Ok? ==> r.value.success && r.value.status == "pending" && r.value.currency == "USD"
    ensures r.Ok? ==> r.value.amount == amount && r.value.paymentMethod == GoCardless
    ensures r.Ok? ==> r.value.transactionId == "gc_" + Decimal.NatToString(now)
    ensures r.Err? ==> r.message == "GoCardless payment failed - invalid mandate"
  {
    if draw > 0.05 then
      Ok(Payment(true, "gc_" + Decimal.NatToString(now), GoCardless, amount, "USD", "pending"))
    else
      Err("GoCardless payment failed - invalid mandate")
  }

  // ---------------------------------------------------------------------
  // Facade

  /** `processSubscriptionPayment`: charge through the routed adapter; a
      failure is re-thrown unchanged. */
  function ProcessSubscriptionPayment(subscriptionId: int, amount: real, customer: Record, draw: real, now: nat)
    : (r: Result<Payment>)
    requires IsDraw(draw)
    ensures r.Ok? ==> r.value.paymentMethod == PreferredProvider(customer)
    ensures r.Ok? ==> r.value.amount == amount && r.value.success
    ensures r.Ok? ==> (r.value.status == "completed" <==> PreferredProvider(customer) == Stripe)
    ensures r.Ok? ==> r.value.status in {"completed", "pending"}
    ensures r.Ok? <==> draw > (if PreferredProvider(customer) == Stripe then 0.1 else 0.05)
    ensures r.Err? ==> r.message == (if PreferredProvider(customer) == Stripe
                                     then "Stripe payment failed - insufficient funds"
                                     else "GoCardless payment failed - invalid mandate")
  {
    match PreferredProvider(customer)
    case Stripe => ProcessStripePayment(subscriptionId, amount, customer, draw, now)
    case GoCardless => ProcessGoCardlessPayment(subscriptionId, amount, customer, draw, now)
  }

  /** A direct-debit charge is never reported `completed`. */
  lemma DebitNeverCompletes(subscriptionId: int, amount: real, customer: Record, draw: real, now: nat)
    requires IsDraw(draw)
    requires PreferredProvider(customer) == GoCardless
    ensures var r := ProcessSubscriptionPayment(subscriptionId, amount, customer, draw, now);
            r.Ok? ==> r.value.status == "pending"
  {
  }

  /** A card charge's transaction id carries the time it was made: the digits
      after "stripe_" read back as `now`. */
  lemma TransactionIdCarriesTime(subscriptionId: int, amount: real, customer: Record, draw: real, now: nat)
    requires IsDraw(draw) && draw > 0.1
    ensures var id := ProcessStripePayment(subscriptionId, amount, customer, draw, now).value.transactionId;
            |id| > 7 && id[..7] == "stripe_" && Decimal.AllDigits(id[7..]) && Decimal.ParseDigits(id[7..]) == now
  {
    var id := ProcessStripePayment(subscriptionId, amount, customer, draw, now).value.transactionId;
    assert id[7..] == Decimal.NatToString(now);
    Decimal.ParseNatToString(now);
  }

  /** `retryPayment`: the same charge again, with the same outcomes. */
  function RetryPayment(subscriptionId: int, amount: real, customer: Record, draw: real, now: nat)
    : (r: Result<Payment>)
    requires IsDraw(draw)
    ensures r.Ok? <==> draw > (if PreferredProvider(customer) == Stripe then 0.1 else 0.05)
    ensures r.Ok? ==> r.value.paymentMethod == PreferredProvider(customer) && r.value.amount == amount
    ensures r.Ok? ==> r.value.success && r.value.currency == "USD"
    ensures r.Ok? ==> r.value.status == (if PreferredProvider(customer) == Stripe then "completed" else "pending")
    ensures r.Err? ==> r.message == (if PreferredProvider(customer) == Stripe
                                     then "Stripe payment failed - insufficient funds"
                                     else "GoCardless payment failed - invalid mandate")
  {
    ProcessSubscriptionPayment(subscriptionId, amount, customer, draw, now)
  }

  /** A retry is indistinguishable from the first attempt made with the same
      draw and clock. */
  lemma RetryIsSameCharge(subscriptionId: int, amount: real, customer: Record, draw: real, now: nat)
    requires IsDraw(draw)
    ensures RetryPayment(subscriptionId, amount, customer, draw, now)
            == ProcessSubscriptionPayment(subscriptionId, amount, customer, draw, now)
  {
  }

  /** `createStripeSubscription`: immediately active, billed again in thirty
      days. */
  function CreateStripeSubscription(data: Fields, customer: Record, now: nat): (m: Mandate)
    ensures m.success && m.paymentMethod == Stripe && m.status == "active"
    ensures m.subscriptionId == "sub_stripe_" + Decimal.NatToString(now)
    ensures m.nextBilling == now + 2592000000
  {
    Mandate(true, "sub_stripe_" + Decimal.NatToString(now), Stripe, "active", now + ThirtyDaysMs)
  }

  /** `createGoCardlessSubscription`: waits for the customer to approve the
      mandate, billed again in thirty days. */
  function CreateGoCardlessSubscription(data: Fields, customer: Record, now: nat): (m: Mandate)
    ensures m.success && m.paymentMethod == GoCardless && m.status == "pending_customer_approval"
    ensures m.subscriptionId == "sub_gc_" + Decimal.NatToString(now)
    ensures m.nextBilling == now + 2592000000
  {
    Mandate(true, "sub_gc_" + Decimal.NatToString(now), GoCardless, "pending_customer_approval", now + ThirtyDaysMs)
  }

  /** `createSubscription`: create through the routed provider. */
  function CreateSubscription(data: Fields, customer: Record, now: nat): (m: Mandate)
    ensures m.success && m.paymentMethod == PreferredProvider(customer)
    ensures m.status == (if PreferredProvider(customer) == Stripe then "active" else "pending_customer_approval")
    ensures m.nextBilling == now + 2592000000
  {
    match PreferredProvider(customer)
    case Stripe => CreateStripeSubscription(data, customer, now)
    case GoCardless => CreateGoCardlessSubscription(data, customer, now)
  }

  /** The mandate does not depend on the subscription's fields: a yearly
      subscription is scheduled thirty days out just like a monthly one. */
  lemma MandateIgnoresSubscriptionData(d1: Fields, d2: Fields, customer: Record, now: nat)
    ensures CreateSubscription(d1, customer, now) == CreateSubscription(d2, customer, now)
  {
  }

  /** `cancelSubscription`: always acknowledged as cancelled, whatever it is
      asked to cancel. */
  function CancelSubscription(subscriptionId: string, paymentMethod: string, now: int): (c: Cancellation)
    ensures c.success && c.status == "cancelled" && c.cancelledAt == now
  {
    Cancellation(true, "cancelled", now)
  }

  /** Cancelling never looks at what it cancels: any two cancellations made
      at the same moment report the same thing. */
  lemma CancelIgnoresTarget(id1: string, method1: string, id2: string, method2: string, now: int)
    ensures CancelSubscription(id1, method1, now) == CancelSubscription(id2, method2, now)
  {
  }

  /** The four statuses a poll can report. */
  const PaymentStatuses: seq<string> := ["completed", "pending", "failed", "cancelled"]

  /** `getPaymentStatus`: echoes the transaction and reports the status the
      draw picks, `statuses[Math.floor(draw * 4)]`. */
  function GetPaymentStatus(transactionId: string, draw: real, now: int): (s: StatusReport)
    requires IsDraw(draw)
    ensures s.transactionId == transactionId && s.updatedAt == now
    ensures s.status in {"completed", "pending", "failed", "cancelled"}
    ensures s.status == "completed" <==> draw < 0.25
    ensures s.status == "pending" <==> 0.25 <= draw < 0.5
    ensures s.status == "failed" <==> 0.5 <= draw < 0.75
    ensures s.status == "cancelled" <==> draw >= 0.75
  {
    var i := (draw * 4.0).Floor;
    StatusReport(transactionId, PaymentStatuses[i], now)
  }
}

=== FILE: recent_activity.dfy ===
/** The "Recent Activity" feed: one entry per subscription started, invoice
    due and customer created after seven days ago (future dates included,
    since nothing bounds the window at the present), newest first, at most
    ten. "Seven days" is taken as exactly seven times 24 hours. */
module RecentActivity {
  import opened Wrappers
  import opened Records
  import Decimal
  import Seqs

  const SevenDaysMs: int := 7 * 24 * 60 * 60 * 1000

  /** How many entries the feed keeps. */
  const FeedLength: nat := 10

  datatype Kind = SubscriptionKind | InvoiceKind | CustomerKind

  datatype Activity = Activity(id: string, kind: Kind, title: string, timestamp: int, status: Option<Value>)

  function IdPrefix(k: Kind): string {
    match k
    case SubscriptionKind => "sub-"
    case InvoiceKind => "inv-"
    case CustomerKind => "cust-"
  }

  function Title(k: Kind): string {
    match k
    case SubscriptionKind => "New Subscription"
    case InvoiceKind => "Invoice Generated"
    case CustomerKind => "New Customer"
  }

  /** The date property that places a record in the feed. */
  function TimeKey(k: Kind): string {
    match k
    case SubscriptionKind => "startDate"
    case InvoiceKind => "dueDate"
    case CustomerKind => "createdAt"
  }

  /** The record's date is strictly after seven days ago, with no upper
      bound, so a future date is recent; a missing date is an invalid date
      and never is. */
  predicate IsRecent(r: Record, k: Kind, now: int) {
    DateOf(r, TimeKey(k)).Some? && DateOf(r, TimeKey(k)).value > now - SevenDaysMs
  }

  /** The entry a record contributes. */
  function ActivityFor(r: Record, k: Kind): (a: Activity)
    requires DateOf(r, TimeKey(k)).Some?
    ensures a.kind == k && a.timestamp == DateOf(r, TimeKey(k)).value
    ensures a.id == IdPrefix(k) + Decimal.IntToString(r.id)
    ensures k == CustomerKind ==> a.status == Some(Str("active"))
    ensures k != CustomerKind ==> a.status == Field(r, "status")
  {
    Activity(
      IdPrefix(k) + Decimal.IntToString(r.id),
      k,
      Title(k),
      DateOf(r, TimeKey(k)).value,
      if k == CustomerKind then Some(Str("active")) else Field(r, "status"))
  }

  /** The entries of one collection, in its order: one entry for each
      recent record, and nothing else. */
  function ActivitiesOf(records: seq<Record>, k: Kind, now: int): (acts: seq<Activity>)
    ensures |acts| <= |records|
    ensures forall a :: a in acts ==> a.kind == k && a.timestamp > now - SevenDaysMs
    ensures forall a :: a in acts ==> exists r :: r in records && IsRecent(r, k, now) && a == ActivityFor(r, k)
    ensures forall r :: r in records && IsRecent(r, k, now) ==> ActivityFor(r, k) in acts
  {
    if |records| == 0 then []
    else
      var rest := ActivitiesOf(records[1..], k, now);
      assert forall r :: r in records[1..] ==> r in records;
      assert forall r :: r in records ==> r == records[0] || r in records[1..];
      (if IsRecent(records[0], k, now) then [ActivityFor(records[0], k)] else []) + rest
  }

  /** The entries are exactly those of the recent records, one each, in the
      records' order. */
  lemma {:induction false} ActivitiesOfExact(records: seq<Record>, k: Kind, now: int)
    ensures var kept := Seqs.Filter(records, (r: Record) => IsRecent(r, k, now));
            var acts := ActivitiesOf(records, k, now);
            |acts| == |kept| &&
            forall i :: 0 <= i < |kept| ==> IsRecent(kept[i], k, now) && acts[i] == ActivityFor(kept[i], k)
  {
    var p := (r: Record) => IsRecent(r, k, now);
    if |records| > 0 {
      ActivitiesOfExact(records[1..], k, now);
      var kept, rest := Seqs.Filter(records[1..], p), ActivitiesOf(records[1..], k, now);
      var all, acts := Seqs.Filter(records, p), ActivitiesOf(records, k, now);
      if p(records[0]) {
        assert all == [records[0]] + kept;
        assert acts == [ActivityFor(records[0], k)] + rest;
        EntriesCons(records[0], kept, rest, k, now);
      } else {
        assert all == kept;
        assert acts == rest;
      }
    }
  }

  /** One more recent record in front adds its entry in front. */
  lemma EntriesCons(r: Record, kept: seq<Record>, rest: seq<Activity>, k: Kind, now: int)
    requires IsRecent(r, k, now) && |rest| == |kept|
    requires forall i :: 0 <= i < |kept| ==> IsRecent(kept[i], k, now) && rest[i] == ActivityFor(kept[i], k)
    ensures var all, acts := [r] + kept, [ActivityFor(r, k)] + rest;
            |acts| == |all| &&
            forall i :: 0 <= i < |all| ==> IsRecent(all[i], k, now) && acts[i] == ActivityFor(all[i], k)
  {
    var all, acts := [r] + kept, [ActivityFor(r, k)] + rest;
    forall i | 0 < i < |all|
      ensures IsRecent(all[i], k, now) && acts[i] == ActivityFor(all[i], k)
    {
      assert all[i] == kept[i - 1] && acts[i] == rest[i - 1];
    }
  }

  /** Every entry collected before sorting: subscriptions, then invoices, then
      customers. */
  function Collect(subs: seq<Record>, invoices: seq<Record>, customers: seq<Record>, now: int): seq<Activity> {
    ActivitiesOf(subs, SubscriptionKind, now)
    + ActivitiesOf(invoices, InvoiceKind, now)
    + ActivitiesOf(customers, CustomerKind, now)
  }

  /** An entry is in the feed's input exactly when its record is recent. */
  lemma CollectMeaning(subs: seq<Record>, invoices: seq<Record>, customers: seq<Record>, now: int, r: Record)
    ensures r in subs && IsRecent(r, SubscriptionKind, now) ==>
              ActivityFor(r, SubscriptionKind) in Collect(subs, invoices, customers, now)
    ensures r in invoices && IsRecent(r, InvoiceKind, now) ==>
              ActivityFor(r, InvoiceKind) in Collect(subs, invoices, customers, now)
    ensures r in customers && IsRecent(r, CustomerKind, now) ==>
              ActivityFor(r, CustomerKind) in Collect(subs, invoices, customers, now)
    ensures forall a :: a in Collect(subs, invoices, customers, now) ==> a.timestamp > now - SevenDaysMs
  {
  }

  /** Entries of different kinds never share an id, and entries of one kind
      share an id only when their records share an Id. */
  lemma ActivityIdsDistinct(r1: Record, k1: Kind, r2: Record, k2: Kind)
    requires DateOf(r1, TimeKey(k1)).Some? && DateOf(r2, TimeKey(k2)).Some?
    requires ActivityFor(r1, k1).id == ActivityFor(r2, k2).id
    ensures k1 == k2 && r1.id == r2.id
  {
    var id := ActivityFor(r1, k1).id;
    assert id[0] == IdPrefix(k1)[0] && id[0] == IdPrefix(k2)[0];
    assert k1 == k2;
    var n := |IdPrefix(k1)|;
    assert id[n..] == Decimal.IntToString(r1.id);
    assert ActivityFor(r2, k2).id[n..] == Decimal.IntToString(r2.id);
    Decimal.IntToStringInjective(r1.id, r2.id);
  }

  // ---------------------------------------------------------------------
  // Newest first

  predicate NewestFirst(s: seq<Activity>) {
    forall i, j :: 0 <= i < j < |s| ==> s[i].timestamp >= s[j].timestamp
  }

  /** Putting an entry no older than the rest in front keeps the order. */
  lemma ConsNewestFirst(x: Activity, rest: seq<Activity>)
    requires NewestFirst(rest)
    requires forall y :: y in rest ==> y.timestamp <= x.timestamp
    ensures NewestFirst([x] + rest)
  {
  }

  /** Place `a` before the first entry that is not newer than it. */
  function Insert(a: Activity, s: seq<Activity>): (r: seq<Activity>)
    requires NewestFirst(s)
    ensures |r| == |s| + 1
    ensures forall x :: x in r <==> x == a || x in s
    ensures multiset(r) == multiset(s) + multiset{a}
    ensures NewestFirst(r)
  {
    if |s| == 0 || a.timestamp >= s[0].timestamp then
      ConsNewestFirst(a, s);
      [a] + s
    else
      var rest := Insert(a, s[1..]);
      assert s == [s[0]] + s[1..];
      assert forall x :: x in s[1..] ==> s[0].timestamp >= x.timestamp by {
        forall x | x in s[1..] ensures s[0].timestamp >= x.timestamp {
          var j :| 0 <= j < |s[1..]| && s[1..][j] == x;
          assert s[j + 1] == x;
        }
      }
      ConsNewestFirst(s[0], rest);
      [s[0]] + rest
  }

  /** `sort((a, b) => b.timestamp - a.timestamp)`: a newest-first
      rearrangement of the entries. */
  function SortNewestFirst(s: seq<Activity>): (r: seq<Activity>)
    ensures NewestFirst(r)
    ensures multiset(r) == multiset(s)
    ensures |r| == |s|
  {
    if |s| == 0 then []
    else
      assert s == [s[0]] + s[1..];
      Insert(s[0], SortNewestFirst(s[1..]))
  }

  /** In a newest-first sequence, a prefix is newest first and what it
      leaves out is no newer than anything it keeps. */
  lemma PrefixIsNewest(s: seq<Activity>, k: nat)
    requires NewestFirst(s) && k <= |s|
    ensures NewestFirst(s[..k])
    ensures multiset(s[..k]) <= multiset(s)
    ensures forall a, b :: a in s[..k] && b in multiset(s) - multiset(s[..k]) ==> b.timestamp <= a.timestamp
  {
    var front, back := s[..k], s[k..];
    assert s == front + back;
    assert multiset(s) - multiset(front) == multiset(back);
    BackNoNewer(s, k);
  }

  /** In a newest-first sequence, nothing after position `k` is newer than
      anything before it. */
  lemma BackNoNewer(s: seq<Activity>, k: nat)
    requires NewestFirst(s) && k <= |s|
    ensures forall a, b :: a in s[..k] && b in s[k..] ==> b.timestamp <= a.timestamp
  {
    forall a, b | a in s[..k] && b in s[k..]
      ensures b.timestamp <= a.timestamp
    {
      var i :| 0 <= i < k && s[..k][i] == a;
      var j :| 0 <= j < |s| - k && s[k..][j] == b;
      assert s[i] == a && s[k + j] == b;
    }
  }

  /** The newest `FeedLength` entries of `all`, newest first. */
  function Newest(all: seq<Activity>): (feed: seq<Activity>)
    ensures |feed| == if |all| < FeedLength then |all| else FeedLength
    ensures NewestFirst(feed)
    ensures multiset(feed) <= multiset(all)
    ensures forall a, b :: a in feed && b in multiset(all) - multiset(feed) ==> b.timestamp <= a.timestamp
  {
    var sorted := SortNewestFirst(all);
    var k := if |sorted| < FeedLength then |sorted| else FeedLength;
    PrefixIsNewest(sorted, k);
    sorted[..k]
  }

  /** `loadActivities`: collect, sort newest first, keep the first ten. */
  function LoadActivities(subs: seq<Record>, invoices: seq<Record>, customers: seq<Record>, now: int)
    : (feed: seq<Activity>)
    ensures |feed| <= FeedLength
    ensures NewestFirst(feed)
    ensures multiset(feed) <= multiset(Collect(subs, invoices, customers, now))
  {
    Newest(Collect(subs, invoices, customers, now))
  }

  /** Only entries dated after seven days ago reach the feed. */
  lemma FeedWithinWindow(subs: seq<Record>, invoices: seq<Record>, customers: seq<Record>, now: int, a: Activity)
    requires a in LoadActivities(subs, invoices, customers, now)
    ensures a.timestamp > now - SevenDaysMs
  {
    var all := Collect(subs, invoices, customers, now);
    var feed := LoadActivities(subs, invoices, customers, now);
    assert multiset(feed)[a] > 0;
    assert a in multiset(all);
    CollectMeaning(subs, invoices, customers, now, Record(0, map[]));
  }

  /** Nothing left out of the feed is newer than anything shown. */
  lemma FeedIsNewest(subs: seq<Record>, invoices: seq<Record>, customers: seq<Record>, now: int, a: Activity, b: Activity)
    requires a in LoadActivities(subs, invoices, customers, now)
    requires b in multiset(Collect(subs, invoices, customers, now)) - multiset(LoadActivities(subs, invoices, customers, now))
    ensures b.timestamp <= a.timestamp
  {
    var all := Collect(subs, invoices, customers, now);
    assert LoadActivities(subs, invoices, customers, now) == Newest(all);
  }

  /** With at most ten recent records the feed shows all of them. */
  lemma ShortFeedComplete(subs: seq<Record>, invoices: seq<Record>, customers: seq<Record>, now: int)
    requires |Collect(subs, invoices, customers, now)| <= FeedLength
    ensures multiset(LoadActivities(subs, invoices, customers, now)) == multiset(Collect(subs, invoices, customers, now))
  {
    var all := Collect(subs, invoices, customers, now);
    var feed := LoadActivities(subs, invoices, customers, now);
    assert |multiset(feed)| == |feed| == |all| == |multiset(all)|;
    MultisetSubsetSameSize(multiset(feed), multiset(all));
  }

  /** An invoice due in the future is "recent": a lone invoice due any time
      from now on shows in the feed. */
  lemma FutureDueInvoiceShown(inv: Record, now: int)
    requires DateOf(inv, "dueDate").Some? && DateOf(inv, "dueDate").value >= now
    ensures ActivityFor(inv, InvoiceKind) in LoadActivities([], [inv], [], now)
  {
  }

  lemma {:induction false} MultisetSubsetSameSize<T>(a: multiset<T>, b: multiset<T>)
    requires a <= b && |a| == |b|
    ensures a == b
  {
    if |a| > 0 {
      var x :| x in a;
      MultisetSubsetSameSize(a - multiset{x}, b - multiset{x});
    }
  }
}

=== FILE: records.dfy ===
/** The records every store holds. A JavaScript record is an object with a
    numeric `Id` and arbitrary other properties; here the `Id` is kept apart
    and the other properties form a field map. Timestamps are integer
    milliseconds since the epoch. */
module Records {
  import opened Wrappers

  /** A property value: a number, a string, a timestamp, `null`, or a nested
      object such as a customer's `address`. */
  datatype Value = Num(n: real) | Str(s: string) | Time(ms: int) | Null | Obj(props: map<string, Value>)

  /** The non-`Id` properties of an object. */
  type Fields = m: map<string, Value> | "Id" !in m

  datatype Record = Record(id: int, fields: Fields)

  /** An object spread into a record: `Id` only when the object has one. */
  datatype Patch = Patch(id: Option<int>, fields: Fields)

  /** `r[key]`, `undefined` when the property is missing. */
  function Field(r: Record, key: string): Option<Value> {
    if key in r.fields then Some(r.fields[key]) else None
  }

  /** `r[key] === v`. */
  predicate FieldIs(r: Record, key: string, v: Value) {
    Field(r, key) == Some(v)
  }

  /** `r[key]` when it is a string. */
  function TextField(r: Record, key: string): Option<string> {
    if key in r.fields && r.fields[key].Str? then Some(r.fields[key].s) else None
  }

  /** `TimeClip` applied to a number of milliseconds: within 8.64e15 ms of
      the epoch it is truncated toward zero, further out it is an invalid
      date. */
  function ClipTime(x: real): (t: Option<int>)
    ensures t.Some? <==> -8640000000000000.0 <= x <= 8640000000000000.0
    ensures t.Some? && x >= 0.0 ==> t.value >= 0 && t.value as real <= x < t.value as real + 1.0
    ensures t.Some? && x < 0.0 ==> t.value <= 0 && t.value as real - 1.0 < x <= t.value as real
  {
    if x < -8640000000000000.0 || x > 8640000000000000.0 then None
    else if x >= 0.0 then Some(x.Floor)
    else Some(-((-x).Floor))
  }

  /** `new Date(r[key])` as milliseconds: a timestamp is itself, a number is
      clipped and truncated as `TimeClip` does, and `null` is the epoch; a
      missing property, a string or an object is an invalid date (`None`),
      which is after nothing and before nothing. */
  function DateOf(r: Record, key: string): (d: Option<int>)
    ensures key !in r.fields ==> d.None?
    ensures key in r.fields && r.fields[key].Null? ==> d == Some(0)
    ensures key in r.fields && r.fields[key].Time? ==> d == Some(r.fields[key].ms)
    ensures key in r.fields && r.fields[key].Num? ==> d == ClipTime(r.fields[key].n)
    ensures key in r.fields && (r.fields[key].Str? || r.fields[key].Obj?) ==> d.None?
  {
    if key !in r.fields then None
    else match r.fields[key]
      case Time(ms) => Some(ms)
      case Null => Some(0)
      case Num(x) => ClipTime(x)
      case _ => None
  }

  /** `r[key] === id` for a property that refers to another record's `Id`. */
  predicate RefersTo(r: Record, key: string, id: int) {
    FieldIs(r, key, Num(id as real))
  }

  /** `{ ...r, ...p }`: the patch's properties, `Id` included, win. */
  function Merge(r: Record, p: Patch): (m: Record)
    ensures m.id == (if p.id.Some? then p.id.value else r.id)
    ensures m.fields.Keys == r.fields.Keys + p.fields.Keys
    ensures forall k :: k in p.fields ==> m.fields[k] == p.fields[k]
    ensures forall k :: k in r.fields && k !in p.fields ==> m.fields[k] == r.fields[k]
  {
    Record(p.id.GetOr(r.id), r.fields + p.fields)
  }

  /** Applying the same patch twice is applying it once. */
  lemma MergeIdempotent(r: Record, p: Patch)
    ensures Merge(Merge(r, p), p) == Merge(r, p)
  {
  }

  /** A single-property patch `{ [key]: v }`. */
  function SetField(key: string, v: Value): Patch
    requires key != "Id"
  {
    Patch(None, map[key := v])
  }
}

=== FILE: rows.dfy ===
/** Row helpers shared by the tables and grids: resolving a reference to
    another record, the optional-chained text search, and the local row
    updates applied after a successful service call
    (`rows.map(x => x.Id === id ? ... : x)`, which touches EVERY row carrying
    the Id, not just the first). */
module Rows {
  import opened Wrappers
  import opened Records
  import opened Text
  import Seqs

  /** `table.find(x => x.Id === r[key])`. */
  function Lookup(table: seq<Record>, r: Record, key: string): (o: Option<Record>)
    ensures o.Some? ==> o.value in table && RefersTo(r, key, o.value.id)
    ensures o.None? <==> forall i :: 0 <= i < |table| ==> !RefersTo(r, key, table[i].id)
    ensures o.Some? ==> exists i :: 0 <= i < |table| && table[i] == o.value
                          && forall j :: 0 <= j < i ==> !RefersTo(r, key, table[j].id)
  {
    Seqs.Find(table, (x: Record) => RefersTo(r, key, x.id))
  }

  /** `o?.[key]?.toLowerCase().includes(lowerTerm)`: false when the record or
      the property is missing. */
  predicate TextIncludes(o: Option<Record>, key: string, lowerTerm: string) {
    o.Some? && TextField(o.value, key).Some? && Includes(Lower(TextField(o.value, key).value), lowerTerm)
  }


  /** `{ ...x, status }` on the rows with the Id. */
  function SetStatusWhere(rows: seq<Record>, id: int, status: string): (r: seq<Record>)
    ensures |r| == |rows|
    ensures forall i :: 0 <= i < |rows| && rows[i].id == id ==>
              r[i].id == id && r[i].fields == rows[i].fields["status" := Str(status)]
    ensures forall i :: 0 <= i < |rows| && rows[i].id != id ==> r[i] == rows[i]
  {
    seq(|rows|, i requires 0 <= i < |rows| =>
      if rows[i].id == id then Merge(rows[i], SetField("status", Str(status))) else rows[i])
  }

  /** The row replaced by `rec` wherever the Id matches. */
  function ReplaceWhere(rows: seq<Record>, id: int, rec: Record): (r: seq<Record>)
    ensures |r| == |rows|
    ensures forall i :: 0 <= i < |rows| ==> r[i] == (if rows[i].id == id then rec else rows[i])
  {
    seq(|rows|, i requires 0 <= i < |rows| => if rows[i].id == id then rec else rows[i])
  }
}

=== FILE: seqs.dfy ===
/** Sequence helpers that model `Array.prototype.filter`, `findIndex` and
    `map`-with-replacement, the three array idioms the services and the
    components are built from. */
module Seqs {
  import opened Wrappers

  /** `a` is an order-preserving subsequence of `b`. */
  predicate IsSubsequence<T(==)>(a: seq<T>, b: seq<T>)
    decreases |b|
  {
    if |a| == 0 then true
    else if |b| == 0 then false
    else if a[0] == b[0] then IsSubsequence(a[1..], b[1..])
    else IsSubsequence(a, b[1..])
  }

  /** `s.filter(p)`: the elements satisfying `p`, in their original order. */
  function Filter<T(==)>(s: seq<T>, p: T -> bool): (r: seq<T>)
    ensures |r| <= |s|
    ensures IsSubsequence(r, s)
    ensures forall x :: x in r ==> x in s && p(x)
    ensures forall x :: x in s && p(x) ==> x in r
    ensures multiset(r) <= multiset(s)
    ensures forall x :: x in s ==> multiset(r)[x] == if p(x) then multiset(s)[x] else 0
  {
    if |s| == 0 then []
    else
      var rest := Filter(s[1..], p);
      assert forall x :: x in s[1..] ==> x in s;
      assert s == [s[0]] + s[1..];
      FilterConsCounts(s[0], s[1..], rest, p);
      if p(s[0]) then [s[0]] + rest else rest
  }

  /** The multiplicity step of `Filter`: a kept head adds one copy of
      itself, a dropped one adds nothing. */
  lemma FilterConsCounts<T>(x: T, tail: seq<T>, rest: seq<T>, p: T -> bool)
    requires multiset(rest) <= multiset(tail)
    requires forall y :: y in tail ==> multiset(rest)[y] == if p(y) then multiset(tail)[y] else 0
    ensures var r := if p(x) then [x] + rest else rest;
            forall y :: y in [x] + tail ==> multiset(r)[y] == if p(y) then multiset([x] + tail)[y] else 0
  {
    var r := if p(x) then [x] + rest else rest;
    assert multiset([x] + tail) == multiset{x} + multiset(tail);
    assert multiset(r) == (if p(x) then multiset{x} else multiset{}) + multiset(rest);
    forall y | y in [x] + tail
      ensures multiset(r)[y] == if p(y) then multiset([x] + tail)[y] else 0
    {
      if y !in tail {
        assert multiset(tail)[y] == 0;
      }
    }
  }

  /** `s.filter(p).length`. */
  function Count<T(==)>(s: seq<T>, p: T -> bool): nat
  {
    |Filter(s, p)|
  }

  /** Filtering distributes over concatenation. */
  lemma {:induction false} FilterAppend<T>(a: seq<T>, b: seq<T>, p: T -> bool)
    ensures Filter(a + b, p) == Filter(a, p) + Filter(b, p)
  {
    if |a| == 0 {
      assert a + b == b;
    } else {
      assert (a + b)[1..] == a[1..] + b;
      FilterAppend(a[1..], b, p);
    }
  }

  /** Filtering with a predicate every element satisfies keeps everything. */
  lemma {:induction false} FilterAll<T>(s: seq<T>, p: T -> bool)
    requires forall x :: x in s ==> p(x)
    ensures Filter(s, p) == s
  {
    if |s| > 0 {
      assert forall x :: x in s[1..] ==> x in s;
      FilterAll(s[1..], p);
    }
  }

  /** Filtering twice is filtering once by the conjunction. */
  lemma {:induction false} FilterFilter<T>(s: seq<T>, p: T -> bool, q: T -> bool, pq: T -> bool)
    requires forall x :: pq(x) == (p(x) && q(x))
    ensures Filter(Filter(s, p), q) == Filter(s, pq)
  {
    if |s| > 0 {
      FilterFilter(s[1..], p, q, pq);
      if p(s[0]) {
        assert Filter(s, p) == [s[0]] + Filter(s[1..], p);
        assert Filter(s, p)[1..] == Filter(s[1..], p);
      }
    }
  }

  /** A count under a predicate that implies a disjunction is at most the
      sum of the two counts. */
  lemma {:induction false} CountOrBound<T>(s: seq<T>, p: T -> bool, q: T -> bool, pq: T -> bool)
    requires forall x :: pq(x) ==> p(x) || q(x)
    ensures Count(s, pq) <= Count(s, p) + Count(s, q)
  {
    if |s| > 0 {
      CountOrBound(s[1..], p, q, pq);
    }
  }

  /** A count under a stronger predicate is at most the count under a weaker one. */
  lemma {:induction false} CountMonotone<T>(s: seq<T>, p: T -> bool, q: T -> bool)
    requires forall x :: p(x) ==> q(x)
    ensures Count(s, p) <= Count(s, q)
  {
    if |s| > 0 {
      CountMonotone(s[1..], p, q);
    }
  }

  /** The first index satisfying `p`, as `Array.prototype.findIndex` (with
      `None` for its `-1`). */
  function FirstIndex<T>(s: seq<T>, p: T -> bool): (r: Option<nat>)
    ensures r.Some? ==> r.value < |s| && p(s[r.value])
    ensures r.Some? ==> forall j :: 0 <= j < r.value ==> !p(s[j])
    ensures r.None? <==> forall j :: 0 <= j < |s| ==> !p(s[j])
  {
    if |s| == 0 then None
    else if p(s[0]) then Some(0)
    else
      match FirstIndex(s[1..], p)
      case None => None
      case Some(i) => Some(i + 1)
  }

  /** `s.find(p)`: the first element satisfying `p`, or `undefined`. */
  function Find<T>(s: seq<T>, p: T -> bool): (r: Option<T>)
    ensures r.Some? ==> r.value in s && p(r.value)
    ensures r.None? <==> forall j :: 0 <= j < |s| ==> !p(s[j])
    ensures r.Some? ==> exists i :: 0 <= i < |s| && s[i] == r.value &&
                                    forall j :: 0 <= j < i ==> !p(s[j])
  {
    match FirstIndex(s, p)
    case None => None
    case Some(i) => Some(s[i])
  }

  /** `s.splice(i, 1)`: the sequence without position `i`. */
  function RemoveAt<T>(s: seq<T>, i: nat): (r: seq<T>)
    requires i < |s|
    ensures |r| == |s| - 1
    ensures forall j :: 0 <= j < i ==> r[j] == s[j]
    ensures forall j :: i <= j < |r| ==> r[j] == s[j + 1]
  {
    s[..i] + s[i + 1..]
  }
}

=== FILE: status_badge.dfy ===
/** The status badge: a status string, looked up case-insensitively in a
    fixed table, picks the badge's colour variant, label and icon; unknown
    statuses fall back to the "active" entry. */
module StatusBadge {
  import opened Wrappers
  import opened Text

  datatype Config = Config(variant: string, caption: string, icon: string)

  /** The status table: the entry for a lower-case status, if it has one. */
  function Entry(key: string): Option<Config> {
    match key
    case "active" => Some(Config("active", "Active", "CheckCircle"))
    case "suspended" => Some(Config("suspended", "Suspended", "PauseCircle"))
    case "cancelled" => Some(Config("cancelled", "Cancelled", "XCircle"))
    case "trial" => Some(Config("trial", "Trial", "Clock"))
    case "paid" => Some(Config("success", "Paid", "CheckCircle"))
    case "pending" => Some(Config("warning", "Pending", "Clock"))
    case "overdue" => Some(Config("danger", "Overdue", "AlertCircle"))
    case _ => None
  }

  const Fallback: Config := Config("active", "Active", "CheckCircle")

  /** `statusConfig[status.toLowerCase()] || statusConfig.active`. */
  function Lookup(status: string): (c: Config)
    ensures Entry(Lower(status)).Some? ==> c == Entry(Lower(status)).value
    ensures Entry(Lower(status)).None? ==> c == Entry("active").value
  {
    match Entry(Lower(status))
    case Some(found) => found
    case None => Fallback
  }

  /** What the badge shows: its variant, an icon exactly when asked for, and
      the label. */
  datatype Badge = Badge(variant: string, icon: string, showsIcon: bool, caption: string)

  function Render(status: string, showIcon: bool): (b: Badge)
    ensures b.showsIcon == showIcon
    ensures Config(b.variant, b.caption, b.icon) == Lookup(status)
  {
    var c := Lookup(status);
    Badge(c.variant, c.icon, showIcon, c.caption)
  }

  /** Case does not matter. */
  lemma CaseInsensitive(status: string, showIcon: bool)
    ensures Render(Lower(status), showIcon) == Render(status, showIcon)
  {
    LowerIdempotent(status);
  }

  /** Each known status's label, read back as a status, gives the same
      badge: the table is keyed by its labels, lower-cased. */
  lemma LabelRoundTrip(status: string)
    requires Entry(status).Some?
    ensures Lookup(Entry(status).value.caption) == Entry(status).value
  {
    var caption := Entry(status).value.caption;
    LowerCapitalized(caption, status);
  }

  /** Lower-casing a capitalised word changes only its first letter. */
  lemma LowerCapitalized(s: string, t: string)
    requires |s| == |t| > 0 && IsUpper(s[0]) && t[0] as int == s[0] as int + 32
    requires forall i :: 1 <= i < |s| ==> !IsUpper(s[i]) && t[i] == s[i]
    ensures Lower(s) == t
  {
  }

  /** A customer whose status is "inactive" (as the customer card computes
      when no subscription is active) gets the "Active" badge, since the table
      has no "inactive" entry. */
  lemma InactiveShowsActive()
    ensures Render("inactive", true).caption == "Active"
    ensures Render("inactive", true).variant == "active"
  {
  }

  /** Unknown statuses all look alike. */
  lemma UnknownStatusesAgree(s: string, t: string)
    requires Entry(Lower(s)).None? && Entry(Lower(t)).None?
    ensures Render(s, true) == Render(t, true) == Render("active", true)
  {
    assert Lower("active") == "active";
  }
}

=== FILE: store.dfy ===
/** The keyed in-memory collection shared by the subscription, customer,
    hosting-plan and invoice services: an array of records searched by `Id`,
    where `create` appends under the next Id, `update` shallow-merges into the
    first match and `delete` splices the first match out. The stores differ
    only in the fields `create` forces and in their not-found message. */
module Store {
  import opened Wrappers
  import opened Records
  import Seqs

  type Table = seq<Record>

  predicate HasId(r: Record, id: int) {
    r.id == id
  }

  /** `i` is the position `findIndex(r => r.Id === id)` returns. */
  predicate FirstWithId(s: Table, id: int, i: int) {
    0 <= i < |s| && s[i].id == id && forall j :: 0 <= j < i ==> s[j].id != id
  }

  predicate Absent(s: Table, id: int) {
    forall i :: 0 <= i < |s| ==> s[i].id != id
  }

  /** No two records share an Id. */
  predicate UniqueIds(s: Table) {
    forall i, j :: 0 <= i < j < |s| ==> s[i].id != s[j].id
  }

  function IndexOf(s: Table, id: int): (r: Option<nat>)
    ensures r.Some? ==> FirstWithId(s, id, r.value)
    ensures r.None? <==> Absent(s, id)
  {
    Seqs.FirstIndex(s, (x: Record) => HasId(x, id))
  }

  /** `getAll`: a fresh array with the current contents. */
  function GetAll(s: Table): (r: Table)
    ensures |r| == |s| && forall i :: 0 <= i < |s| ==> r[i] == s[i]
  {
    s
  }

  /** `getById`: the first record with the Id, or `undefined`; never throws. */
  function GetById(s: Table, id: int): (r: Option<Record>)
    ensures r.None? <==> Absent(s, id)
    ensures r.Some? ==> exists i :: FirstWithId(s, id, i) && s[i] == r.value
  {
    match IndexOf(s, id)
    case None => None
    case Some(i) => Some(s[i])
  }

  // ---------------------------------------------------------------------
  // Next Id

  /** Largest Id in the store; 0 stands in for an empty store. */
  function MaxId(s: Table): (m: int)
    ensures forall i :: 0 <= i < |s| ==> s[i].id <= m
    ensures |s| > 0 ==> exists i :: 0 <= i < |s| && s[i].id == m
    ensures |s| == 0 ==> m == 0
  {
    if |s| == 0 then 0
    else
      var m := MaxId(s[..|s| - 1]);
      if |s| == 1 || s[|s| - 1].id > m then s[|s| - 1].id else m
  }

  /** `Math.max(...ids) + 1`, with the empty store read as Id 1 (see
      `NextIdAsWritten` for what the services actually compute there). */
  function NextId(s: Table): (n: int)
    ensures forall i :: 0 <= i < |s| ==> s[i].id < n
    ensures |s| > 0 ==> exists i :: 0 <= i < |s| && s[i].id == n - 1
    ensures |s| == 0 ==> n == 1
  {
    MaxId(s) + 1
  }

  /** JavaScript numbers extended with `-Infinity`, enough to model `Math.max`
      of an empty list. */
  datatype ExtInt = NegInfinity | Finite(n: int)

  function ExtMax(a: ExtInt, b: ExtInt): ExtInt {
    match (a, b)
    case (NegInfinity, _) => b
    case (_, NegInfinity) => a
    case (Finite(x), Finite(y)) => if x >= y then a else b
  }

  /** `Math.max(...ids)`: `-Infinity` for no arguments. */
  function MathMax(ids: seq<ExtInt>): ExtInt {
    if |ids| == 0 then NegInfinity else ExtMax(MathMax(ids[..|ids| - 1]), ids[|ids| - 1])
  }

  /** `Math.max(...ids) + 1` exactly as the services compute it, with Ids that
      may themselves be `-Infinity` (`-Infinity + 1` is `-Infinity`). */
  function NextIdAsWritten(ids: seq<ExtInt>): ExtInt {
    match MathMax(ids)
    case NegInfinity => NegInfinity
    case Finite(m) => Finite(m + 1)
  }

  function FiniteIds(s: Table): (ids: seq<ExtInt>)
    ensures |ids| == |s|
  {
    if |s| == 0 then [] else FiniteIds(s[..|s| - 1]) + [Finite(s[|s| - 1].id)]
  }

  /** On a non-empty store the corrected rule computes what the services do. */
  lemma {:induction false} NextIdAgreesWhenNonEmpty(s: Table)
    requires |s| > 0
    ensures NextIdAsWritten(FiniteIds(s)) == Finite(NextId(s))
  {
    MathMaxFinite(s);
  }

  lemma {:induction false} MathMaxFinite(s: Table)
    requires |s| > 0
    ensures MathMax(FiniteIds(s)) == Finite(MaxId(s))
  {
    var ids := FiniteIds(s);
    assert ids[..|ids| - 1] == FiniteIds(s[..|s| - 1]);
    if |s| > 1 {
      MathMaxFinite(s[..|s| - 1]);
    }
  }

  /** On an empty store the first `create` gets Id `-Infinity`, and so does
      the second one: two records share an Id. */
  lemma EmptyStoreIdsCollide()
    ensures NextIdAsWritten([]) == NegInfinity
    ensures NextIdAsWritten([NextIdAsWritten([])]) == NextIdAsWritten([])
  {
  }

  // ---------------------------------------------------------------------
  // Create, update, delete

  /** `create`: `{ ...data, Id: next, ...forced }` appended to the store. */
  function Create(s: Table, data: Patch, forced: Fields): (r: (Table, Record))
    ensures r.0 == s + [r.1]
    ensures r.1.id == NextId(s)
    ensures forall i :: 0 <= i < |s| ==> s[i].id < r.1.id
    ensures r.1.fields.Keys == data.fields.Keys + forced.Keys
    ensures forall k :: k in forced ==> r.1.fields[k] == forced[k]
    ensures forall k :: k in data.fields && k !in forced ==> r.1.fields[k] == data.fields[k]
    ensures UniqueIds(s) ==> UniqueIds(r.0)
  {
    var rec := Record(NextId(s), data.fields + forced);
    (s + [rec], rec)
  }

  /** The store after `update` merged `patch` into the first record with `id`,
      and the merged record it returned. */
  ghost predicate UpdatedAt(s: Table, id: int, patch: Patch, after: Table, rec: Record) {
    exists i :: FirstWithId(s, id, i) && rec == Merge(s[i], patch) && after == s[i := rec]
  }

  /** `update`: shallow merge into the first record with `id`, or throw. */
  function Update(s: Table, id: int, patch: Patch, notFound: string): (r: Result<(Table, Record)>)
    ensures r.Err? <==> Absent(s, id)
    ensures r.Err? ==> r.message == notFound
    ensures r.Ok? ==> UpdatedAt(s, id, patch, r.value.0, r.value.1)
    ensures r.Ok? ==> |r.value.0| == |s|
  {
    match IndexOf(s, id)
    case None => Err(notFound)
    case Some(i) =>
      var rec := Merge(s[i], patch);
      Ok((s[i := rec], rec))
  }

  /** The store after `delete` spliced out the first record with `id`, and
      the record it returned. */
  ghost predicate DeletedAt(s: Table, id: int, after: Table, rec: Record) {
    exists i :: FirstWithId(s, id, i) && rec == s[i] && after == s[..i] + s[i + 1..]
  }

  /** `delete`: splice out and return the first record with `id`, or throw. */
  function Delete(s: Table, id: int, notFound: string): (r: Result<(Table, Record)>)
    ensures r.Err? <==> Absent(s, id)
    ensures r.Err? ==> r.message == notFound
    ensures r.Ok? ==> DeletedAt(s, id, r.value.0, r.value.1)
    ensures r.Ok? ==> |r.value.0| == |s| - 1 && r.value.1.id == id
  {
    match IndexOf(s, id)
    case None => Err(notFound)
    case Some(i) => Ok((Seqs.RemoveAt(s, i), s[i]))
  }

  // ---------------------------------------------------------------------
  // Properties relating several operations

  /** A record just created is what `getById` finds under its Id. */
  lemma CreateThenGet(s: Table, data: Patch, forced: Fields)
    ensures GetById(Create(s, data, forced).0, Create(s, data, forced).1.id)
            == Some(Create(s, data, forced).1)
  {
    var (after, rec) := Create(s, data, forced);
    assert FirstWithId(after, rec.id, |s|);
    assert !Absent(after, rec.id);
  }

  /** An update whose patch carries no `Id` keeps the Ids, so uniqueness
      survives and `getById` finds the merged record. */
  lemma UpdateKeepsIds(s: Table, id: int, patch: Patch, notFound: string)
    requires patch.id.None?
    requires Update(s, id, patch, notFound).Ok?
    ensures UniqueIds(s) ==> UniqueIds(Update(s, id, patch, notFound).value.0)
    ensures GetById(Update(s, id, patch, notFound).value.0, id)
            == Some(Update(s, id, patch, notFound).value.1)
  {
    var (after, rec) := Update(s, id, patch, notFound).value;
    var i :| FirstWithId(s, id, i) && rec == Merge(s[i], patch) && after == s[i := rec];
    assert FirstWithId(after, id, i);
  }

  /** A patch that carries an `Id` replaces the record's Id, and can make two
      records share one. */
  lemma PatchIdCanDuplicate()
    ensures var s := [Record(1, map[]), Record(2, map[])];
            var r := Update(s, 2, Patch(Some(1), map[]), "not found");
            r.Ok? && r.value.1.id == 1 && !UniqueIds(r.value.0)
  {
    var s := [Record(1, map[]), Record(2, map[])];
    assert FirstWithId(s, 2, 1);
    assert IndexOf(s, 2) == Some(1);
    var after := Update(s, 2, Patch(Some(1), map[]), "not found").value.0;
    assert after[0].id == after[1].id;
  }

  /** Deleting from a store with unique Ids leaves no record with that Id and
      keeps the others unique. */
  lemma DeleteRemovesId(s: Table, id: int, notFound: string)
    requires UniqueIds(s)
    requires Delete(s, id, notFound).Ok?
    ensures Absent(Delete(s, id, notFound).value.0, id)
    ensures UniqueIds(Delete(s, id, notFound).value.0)
    ensures GetById(Delete(s, id, notFound).value.0, id).None?
  {
  }
}

=== FILE: subscription_service.dfy ===
/** The subscription service: the keyed store of subscriptions. */
module SubscriptionService {
  import opened Wrappers
  import opened Records
  import Store

  const NotFound := "Subscription not found"

  /** `create`: the caller's fields, the next Id, `startDate` set to
      `now` and `status` forced to "active". */
  function Create(s: Store.Table, data: Patch, now: int): (r: (Store.Table, Record))
    ensures r.0 == s + [r.1]
    ensures forall i :: 0 <= i < |s| ==> s[i].id < r.1.id
    ensures |s| > 0 ==> exists i :: 0 <= i < |s| && s[i].id + 1 == r.1.id
    ensures r.1.fields.Keys == data.fields.Keys + {"startDate", "status"}
    ensures FieldIs(r.1, "status", Str("active"))
    ensures FieldIs(r.1, "startDate", Time(now))
    ensures forall k :: k in data.fields && k != "startDate" && k != "status" ==> r.1.fields[k] == data.fields[k]
    ensures Store.UniqueIds(s) ==> Store.UniqueIds(r.0)
  {
    Store.Create(s, data, map["startDate" := Time(now), "status" := Str("active")])
  }

  /** `update`: merge the patch into the first subscription with the Id, or
      throw "Subscription not found" and leave the store as it was. */
  function Update(s: Store.Table, id: int, patch: Patch): (r: Result<(Store.Table, Record)>)
    ensures r.Err? <==> Store.Absent(s, id)
    ensures r.Err? ==> r.message == "Subscription not found"
    ensures r.Ok? ==> Store.UpdatedAt(s, id, patch, r.value.0, r.value.1)
  {
    Store.Update(s, id, patch, NotFound)
  }

  /** `delete`: remove and return the first subscription with the Id, or throw
      "Subscription not found" and leave the store as it was. */
  function Delete(s: Store.Table, id: int): (r: Result<(Store.Table, Record)>)
    ensures r.Err? <==> Store.Absent(s, id)
    ensures r.Err? ==> r.message == "Subscription not found"
    ensures r.Ok? ==> Store.DeletedAt(s, id, r.value.0, r.value.1)
    ensures r.Ok? ==> |r.value.0| == |s| - 1 && r.value.1.id == id
  {
    Store.Delete(s, id, NotFound)
  }
}

=== FILE: subscription_table.dfy ===
/** The subscriptions table: search and status filtering, the row actions
    (retry, suspend, activate) and what each action does to the service's
    store and to the rows on screen. */
module SubscriptionTable {
  import opened Wrappers
  import opened Records
  import opened Text
  import Seqs
  import Store
  import Rows
  import SubscriptionService
  import PaymentService

  /** The search test: the term, lower-cased, occurs in the customer's name or
      e-mail or in the plan's name, all lower-cased. */
  predicate MatchesSearch(sub: Record, customers: seq<Record>, plans: seq<Record>, term: string) {
    var customer := Rows.Lookup(customers, sub, "customerId");
    var plan := Rows.Lookup(plans, sub, "planId");
    Rows.TextIncludes(customer, "name", Lower(term))
    || Rows.TextIncludes(customer, "email", Lower(term))
    || Rows.TextIncludes(plan, "name", Lower(term))
  }

  /** The status filter: "all" or the exact status. */
  predicate MatchesStatus(sub: Record, statusFilter: string) {
    statusFilter == "all" || FieldIs(sub, "status", Str(statusFilter))
  }

  /** `filteredSubscriptions`. */
  function FilterSubscriptions(subs: seq<Record>, customers: seq<Record>, plans: seq<Record>,
                               term: string, statusFilter: string): (r: seq<Record>)
    ensures Seqs.IsSubsequence(r, subs)
    ensures forall x :: x in r ==> MatchesSearch(x, customers, plans, term) && MatchesStatus(x, statusFilter)
    ensures forall x :: x in subs && MatchesSearch(x, customers, plans, term) && MatchesStatus(x, statusFilter)
                        ==> x in r
    ensures multiset(r) <= multiset(subs)
    ensures forall x :: x in subs && MatchesSearch(x, customers, plans, term) && MatchesStatus(x, statusFilter)
                        ==> multiset(r)[x] == multiset(subs)[x]
  {
    Seqs.Filter(subs, (x: Record) => MatchesSearch(x, customers, plans, term) && MatchesStatus(x, statusFilter))
  }

  /** With the filter at "all", the status never hides a row; with any other
      value, only rows whose status is exactly that value can show. */
  lemma StatusFilterMeaning(subs: seq<Record>, customers: seq<Record>, plans: seq<Record>,
                            term: string, statusFilter: string)
    ensures statusFilter == "all" ==>
              FilterSubscriptions(subs, customers, plans, term, statusFilter)
              == Seqs.Filter(subs, (x: Record) => MatchesSearch(x, customers, plans, term))
    ensures statusFilter != "all" ==>
              forall x :: x in FilterSubscriptions(subs, customers, plans, term, statusFilter)
                          ==> FieldIs(x, "status", Str(statusFilter))
  {
    if statusFilter == "all" {
      FilterSameLambda(subs, customers, plans, term);
    }
  }

  lemma {:induction false} FilterSameLambda(subs: seq<Record>, customers: seq<Record>, plans: seq<Record>, term: string)
    ensures Seqs.Filter(subs, (x: Record) => MatchesSearch(x, customers, plans, term) && MatchesStatus(x, "all"))
            == Seqs.Filter(subs, (x: Record) => MatchesSearch(x, customers, plans, term))
  {
    if |subs| > 0 {
      FilterSameLambda(subs[1..], customers, plans, term);
    }
  }

  /** A row whose customer and plan are both unknown is hidden, even when the
      search term is empty. */
  lemma UnresolvedRowHidden(sub: Record, subs: seq<Record>, customers: seq<Record>, plans: seq<Record>,
                            term: string, statusFilter: string)
    requires Rows.Lookup(customers, sub, "customerId").None?
    requires Rows.Lookup(plans, sub, "planId").None?
    ensures sub !in FilterSubscriptions(subs, customers, plans, term, statusFilter)
  {
  }

  /** With an empty term, a row whose customer has a name always passes the
      search. */
  lemma EmptyTermMatchesNamedCustomer(sub: Record, customers: seq<Record>, plans: seq<Record>)
    requires Rows.Lookup(customers, sub, "customerId").Some?
    requires TextField(Rows.Lookup(customers, sub, "customerId").value, "name").Some?
    ensures MatchesSearch(sub, customers, plans, "")
  {
  }

  // ---------------------------------------------------------------------
  // Row actions

  datatype Action = Retry | Suspend | Activate

  /** The buttons a row shows. */
  function OfferedActions(sub: Record): (a: set<Action>)
    ensures Retry in a <==> FieldIs(sub, "paymentStatus", Str("failed"))
    ensures Suspend in a <==> FieldIs(sub, "status", Str("active"))
    ensures Activate in a <==> FieldIs(sub, "status", Str("suspended"))
    ensures !(Suspend in a && Activate in a)
  {
    (if FieldIs(sub, "paymentStatus", Str("failed")) then {Retry} else {})
    + (if FieldIs(sub, "status", Str("active")) then {Suspend} else {})
    + (if FieldIs(sub, "status", Str("suspended")) then {Activate} else {})
  }

  /** The status a status button asks for. */
  function TargetStatus(a: Action): Option<string> {
    match a
    case Retry => None
    case Suspend => Some("suspended")
    case Activate => Some("active")
  }

  /** The only manual transitions the buttons offer are active to suspended
      and suspended to active. */
  lemma ManualTransitionRule(sub: Record, a: Action)
    requires a in OfferedActions(sub) && TargetStatus(a).Some?
    ensures FieldIs(sub, "status", Str("active")) ==> TargetStatus(a) == Some("suspended")
    ensures FieldIs(sub, "status", Str("suspended")) ==> TargetStatus(a) == Some("active")
  {
  }

  /** `handleStatusChange`: update the store first; only if that does not
      throw, set the status on the rows. Any status is accepted. */
  function HandleStatusChange(store: Store.Table, rows: seq<Record>, id: int, newStatus: string)
    : (r: (Store.Table, seq<Record>))
    ensures Store.Absent(store, id) ==> r == (store, rows)
    ensures !Store.Absent(store, id) ==>
              r.0 == SubscriptionService.Update(store, id, SetField("status", Str(newStatus))).value.0
    ensures !Store.Absent(store, id) ==> |r.1| == |rows|
    ensures !Store.Absent(store, id) ==>
              forall i :: 0 <= i < |rows| ==>
                (if rows[i].id == id then r.1[i].id == id && r.1[i].fields == rows[i].fields["status" := Str(newStatus)]
                 else r.1[i] == rows[i])
  {
    match SubscriptionService.Update(store, id, SetField("status", Str(newStatus)))
    case Err(_) => (store, rows)
    case Ok((after, _)) => (after, Rows.SetStatusWhere(rows, id, newStatus))
  }

  /** The handler itself enforces no transition rule: even a cancelled row
      can be set back to active. */
  lemma HandlerAcceptsAnyStatus(store: Store.Table, rows: seq<Record>, id: int)
    requires !Store.Absent(store, id)
    requires |rows| > 0 && rows[0].id == id && FieldIs(rows[0], "status", Str("cancelled"))
    ensures FieldIs(HandleStatusChange(store, rows, id, "active").1[0], "status", Str("active"))
  {
  }

  // ---------------------------------------------------------------------
  // Payment retry

  /** The message of the TypeError raised by calling the missing
      `subscriptionService.retryPayment`. */
  const MissingRetryError := "subscriptionService.retryPayment is not a function"

  /** `handlePaymentRetry` as written: the subscription service defines no
      `retryPayment`, so the call always throws, the failure toast reads
      "Payment retry failed: ..." and no row changes. */
  function HandlePaymentRetryAsWritten(rows: seq<Record>, id: int): (r: (seq<Record>, Option<string>))
    ensures r.0 == rows
    ensures r.1 == Some("Payment retry failed: " + MissingRetryError)
  {
    (rows, Some("Payment retry failed: " + MissingRetryError))
  }

  /** Even a row whose payment failed, the only kind that shows Retry, is
      never updated by a retry. */
  lemma RetryNeverUpdatesRow(rows: seq<Record>, i: nat)
    requires i < |rows| && Retry in OfferedActions(rows[i])
    ensures HandlePaymentRetryAsWritten(rows, rows[i].id).0[i] == rows[i]
    ensures HandlePaymentRetryAsWritten(rows, rows[i].id).1.Some?
  {
  }

  /** `handlePaymentRetry` as intended, with the subscription-level retry's
      outcome passed in: a returned record replaces every row with the Id;
      a failure leaves the rows alone and is reported. */
  function HandlePaymentRetry(rows: seq<Record>, id: int, outcome: Result<Record>): (r: (seq<Record>, Option<string>))
    ensures outcome.Err? ==> r.0 == rows && r.1 == Some("Payment retry failed: " + outcome.message)
    ensures outcome.Ok? ==> r.1.None? && |r.0| == |rows|
    ensures outcome.Ok? ==> forall i :: 0 <= i < |rows| ==>
              (rows[i].id == id ==> r.0[i] == outcome.value) && (rows[i].id != id ==> r.0[i] == rows[i])
  {
    match outcome
    case Err(msg) => (rows, Some("Payment retry failed: " + msg))
    case Ok(rec) => (Rows.ReplaceWhere(rows, id, rec), None)
  }

  // ---------------------------------------------------------------------
  // Payment method indicator

  /** The payment-method label and icon: card for Stripe, bank otherwise. */
  function PaymentMethodLabel(sub: Record): (r: (string, string))
    ensures r.0 == "Card" <==> FieldIs(sub, "paymentMethod", Str("stripe"))
    ensures r.0 == "Bank" <==> !FieldIs(sub, "paymentMethod", Str("stripe"))
    ensures r.1 == (if r.0 == "Card" then "CreditCard" else "Building2")
  {
    if FieldIs(sub, "paymentMethod", Str("stripe")) then ("Card", "CreditCard") else ("Bank", "Building2")
  }

  /** IF a subscription's `paymentMethod` holds the name of the provider the
      gateway chose when creating it, it is labelled "Card" exactly when the
      customer is routed to Stripe. No code in the dashboard stores that name
      on the subscription record; the lemma is conditional on whoever does. */
  lemma LabelFollowsRouter(data: Fields, customer: Record, now: nat, sub: Record)
    requires FieldIs(sub, "paymentMethod",
                     Str(PaymentService.ProviderName(PaymentService.CreateSubscription(data, customer, now).paymentMethod)))
    ensures PaymentMethodLabel(sub).0 == "Card" <==> PaymentService.PreferredProvider(customer) == PaymentService.Stripe
    ensures PaymentMethodLabel(sub).0 == "Bank" <==> PaymentService.PreferredProvider(customer) == PaymentService.GoCardless
  {
  }
}

=== FILE: text.dfy ===
/** String primitives the components rely on: `toLowerCase`, `includes`,
    `trim` and `padStart`. Case folding and whitespace are restricted to
    ASCII. */
module Text {

  /** ASCII whitespace: space, tab, line feed, vertical tab, form feed,
      carriage return. */
  predicate IsSpace(c: char) {
    c == ' ' || c == '\t' || c == '\n' || c == '\U{0B}' || c == '\U{0C}' || c == '\r'
  }

  predicate IsUpper(c: char) {
    'A' <= c <= 'Z'
  }

  function LowerChar(c: char): (d: char)
    ensures !IsUpper(d)
    ensures !IsUpper(c) ==> d == c
    ensures IsUpper(c) ==> 'a' <= d <= 'z' && d as int - c as int == 32
  {
    if IsUpper(c) then (c as int + 32) as char else c
  }

  /** `s.toLowerCase()` on ASCII letters. */
  function Lower(s: string): (r: string)
    ensures |r| == |s|
    ensures forall i :: 0 <= i < |r| ==> !IsUpper(r[i])
    ensures forall i :: 0 <= i < |s| && !IsUpper(s[i]) ==> r[i] == s[i]
    ensures forall i :: 0 <= i < |s| && IsUpper(s[i]) ==> r[i] as int == s[i] as int + 32
  {
    if |s| == 0 then "" else [LowerChar(s[0])] + Lower(s[1..])
  }

  /** Lower-casing twice is lower-casing once. */
  lemma LowerIdempotent(s: string)
    ensures Lower(Lower(s)) == Lower(s)
  {
  }

  /** `t` occurs in `s` starting at `i`. */
  predicate OccursAt(s: string, t: string, i: int) {
    0 <= i && i + |t| <= |s| && s[i..i + |t|] == t
  }

  /** `s.includes(t)`. */
  function Includes(s: string, t: string): (b: bool)
    ensures b <==> exists i :: OccursAt(s, t, i)
    decreases |s|
  {
    if |t| <= |s| && s[..|t|] == t then
      assert OccursAt(s, t, 0);
      true
    else if |s| == 0 then
      assert forall i :: !OccursAt(s, t, i);
      false
    else
      var b := Includes(s[1..], t);
      forall i
        ensures OccursAt(s[1..], t, i) <==> OccursAt(s, t, i + 1)
      {
        if 0 <= i && i + |t| <= |s| - 1 {
          assert s[1..][i..i + |t|] == s[i + 1..i + 1 + |t|];
        }
      }
      assert forall i :: OccursAt(s, t, i) ==> i == 0 || OccursAt(s[1..], t, i - 1);
      b
  }

  /** The empty string occurs in every string. */
  lemma IncludesEmpty(s: string)
    ensures Includes(s, "")
  {
    assert OccursAt(s, "", 0);
  }

  /** `s.trimStart()`. */
  function TrimStart(s: string): (r: string)
    ensures |r| <= |s| && r == s[|s| - |r|..]
    ensures forall i :: 0 <= i < |s| - |r| ==> IsSpace(s[i])
    ensures |r| > 0 ==> !IsSpace(r[0])
  {
    if |s| > 0 && IsSpace(s[0]) then TrimStart(s[1..]) else s
  }

  /** `s.trimEnd()`. */
  function TrimEnd(s: string): (r: string)
    ensures |r| <= |s| && r == s[..|r|]
    ensures forall i :: |r| <= i < |s| ==> IsSpace(s[i])
    ensures |r| > 0 ==> !IsSpace(r[|r| - 1])
  {
    if |s| > 0 && IsSpace(s[|s| - 1]) then TrimEnd(s[..|s| - 1]) else s
  }

  /** `s.trim()`. */
  function Trim(s: string): (r: string)
    ensures |r| <= |s|
    ensures exists k :: OccursAt(s, r, k)
                        && (forall j :: 0 <= j < k ==> IsSpace(s[j]))
                        && (forall j :: k + |r| <= j < |s| ==> IsSpace(s[j]))
    ensures |r| > 0 ==> !IsSpace(r[0]) && !IsSpace(r[|r| - 1])
  {
    var a := TrimStart(s);
    var r := TrimEnd(a);
    TrimSplits(s, a, r);
    r
  }

  /** Dropping a whitespace prefix and then a whitespace suffix leaves a
      piece of the original flanked by whitespace only. */
  lemma TrimSplits(s: string, a: string, r: string)
    requires |a| <= |s| && a == s[|s| - |a|..] && forall i :: 0 <= i < |s| - |a| ==> IsSpace(s[i])
    requires |r| <= |a| && r == a[..|r|] && forall i :: |r| <= i < |a| ==> IsSpace(a[i])
    ensures exists k :: OccursAt(s, r, k)
                        && (forall j :: 0 <= j < k ==> IsSpace(s[j]))
                        && (forall j :: k + |r| <= j < |s| ==> IsSpace(s[j]))
  {
    var k := |s| - |a|;
    assert a == s[k..] && r == a[..|r|];
    assert s[k..k + |r|] == r;
    assert OccursAt(s, r, k);
    forall j | k + |r| <= j < |s|
      ensures IsSpace(s[j])
    {
      assert s[j] == a[j - k];
    }
  }

  /** A string trims to empty exactly when it is all whitespace, which is
      what `!s.trim()` tests. */
  lemma TrimEmptyIffBlank(s: string)
    ensures Trim(s) == "" <==> forall i :: 0 <= i < |s| ==> IsSpace(s[i])
  {
  }

  /** `c` repeated `n` times. */
  function Repeat(c: char, n: nat): (r: string)
    ensures |r| == n
    ensures forall i :: 0 <= i < n ==> r[i] == c
  {
    if n == 0 then "" else [c] + Repeat(c, n - 1)
  }

  /** `s.padStart(n, c)` for a one-character pad string. */
  function PadStart(s: string, n: nat, c: char): (r: string)
    ensures |s| >= n ==> r == s
    ensures |r| == if |s| >= n then |s| else n
    ensures r[|r| - |s|..] == s
    ensures forall i :: 0 <= i < |r| - |s| ==> r[i] == c
  {
    if |s| >= n then s else Repeat(c, n - |s|) + s
  }

  /** Index of the first `c` in `s`, or `|s|` when there is none. */
  function IndexOfChar(s: string, c: char): (i: nat)
    ensures i <= |s|
    ensures forall j :: 0 <= j < i ==> s[j] != c
    ensures i < |s| ==> s[i] == c
  {
    if |s| == 0 || s[0] == c then 0 else 1 + IndexOfChar(s[1..], c)
  }

  /** The parts separated by `c`, as `s.split(c)` gives them. */
  function Split(s: string, c: char): (parts: seq<string>)
    ensures |parts| >= 1
    ensures forall k :: 0 <= k < |parts| ==> c !in parts[k]
    ensures Join(parts, c) == s
    ensures |parts| >= 2 <==> c in s
    decreases |s|
  {
    var i := IndexOfChar(s, c);
    if i == |s| then [s]
    else
      var rest := Split(s[i + 1..], c);
      assert s == s[..i] + [c] + s[i + 1..];
      [s[..i]] + rest
  }

  /** The parts glued back together with `c` between them. */
  function Join(parts: seq<string>, c: char): string
    requires |parts| >= 1
  {
    if |parts| == 1 then parts[0] else parts[0] + [c] + Join(parts[1..], c)
  }

  /** Splitting a joined list of separator-free parts gives the parts back. */
  lemma {:induction false} SplitJoin(parts: seq<string>, c: char)
    requires |parts| >= 1
    requires forall k :: 0 <= k < |parts| ==> c !in parts[k]
    ensures Split(Join(parts, c), c) == parts
  {
    var s := Join(parts, c);
    if |parts| == 1 {
      assert c !in s;
    } else {
      var tail := Join(parts[1..], c);
      var n := |parts[0]|;
      assert s == parts[0] + [c] + tail;
      assert s[..n] == parts[0];
      assert s[n + 1..] == tail;
      assert forall j :: 0 <= j < n ==> s[j] == parts[0][j] && s[j] != c;
      assert s[n] == c;
      assert IndexOfChar(s, c) == n;
      SplitJoin(parts[1..], c);
      assert Split(s, c) == [parts[0]] + parts[1..];
    }
  }
}

=== FILE: usage_service.dfy ===
/** The usage service: metered-usage records keyed by the pair
    (`subscriptionId`, `period`), where `period` is the "YYYY-MM" month the
    record was created in. Usage records are plain objects with no `Id`, so
    they are modelled as bare property maps. */
module UsageService {
  import opened Wrappers
  import opened Records
  import Seqs

  type Usage = map<string, Value>

  /** `u[key]`, `undefined` when missing. */
  function Prop(u: Usage, key: string): Option<Value> {
    if key in u then Some(u[key]) else None
  }

  /** `u.subscriptionId === subscriptionId && u.period === period`. */
  predicate KeyedBy(u: Usage, subscriptionId: Option<Value>, period: Option<Value>) {
    Prop(u, "subscriptionId") == subscriptionId && Prop(u, "period") == period
  }

  /** `getAll`: a fresh array with the current contents. */
  function GetAll(s: seq<Usage>): (r: seq<Usage>)
    ensures |r| == |s| && forall i :: 0 <= i < |s| ==> r[i] == s[i]
  {
    s
  }

  /** `getBySubscriptionId`: every record of the subscription, in stored order. */
  function GetBySubscriptionId(s: seq<Usage>, subscriptionId: Option<Value>): (r: seq<Usage>)
    ensures Seqs.IsSubsequence(r, s)
    ensures forall u :: u in r ==> Prop(u, "subscriptionId") == subscriptionId
    ensures forall u :: u in s && Prop(u, "subscriptionId") == subscriptionId ==> u in r
    ensures multiset(r) <= multiset(s)
    ensures forall u :: u in s && Prop(u, "subscriptionId") == subscriptionId ==> multiset(r)[u] == multiset(s)[u]
  {
    Seqs.Filter(s, (u: Usage) => Prop(u, "subscriptionId") == subscriptionId)
  }

  /** A record just created for a subscription is listed for it, after the
      records it already had. */
  lemma CreatedUsageListed(s: seq<Usage>, data: Usage, month: string)
    ensures var r := Create(s, data, month);
            GetBySubscriptionId(r.0, Prop(data, "subscriptionId"))
            == GetBySubscriptionId(s, Prop(data, "subscriptionId")) + [r.1]
  {
    var r := Create(s, data, month);
    var id := Prop(data, "subscriptionId");
    assert Prop(r.1, "subscriptionId") == id by {
      assert "subscriptionId" != "period" ==> ("subscriptionId" in r.1 <==> "subscriptionId" in data);
    }
    Seqs.FilterAppend(s, [r.1], (u: Usage) => Prop(u, "subscriptionId") == id);
    assert [r.1][1..] == [];
  }

  /** `create`: the caller's fields with `period` stamped to the current
      month, appended without any check that the (subscription, period) pair
      is new. */
  function Create(s: seq<Usage>, data: Usage, currentPeriod: string): (r: (seq<Usage>, Usage))
    ensures r.0 == s + [r.1]
    ensures Prop(r.1, "period") == Some(Str(currentPeriod))
    ensures r.1.Keys == data.Keys + {"period"}
    ensures forall k :: k in data && k != "period" ==> r.1[k] == data[k]
  {
    var u := data + map["period" := Str(currentPeriod)];
    (s + [u], u)
  }

  /** `update`: merge the patch into the first record keyed by the pair, or
      throw "Usage record not found" and change nothing. */
  function Update(s: seq<Usage>, subscriptionId: Option<Value>, period: Option<Value>, patch: Usage)
    : (r: Result<(seq<Usage>, Usage)>)
    ensures r.Err? <==> forall i :: 0 <= i < |s| ==> !KeyedBy(s[i], subscriptionId, period)
    ensures r.Err? ==> r.message == "Usage record not found"
    ensures r.Ok? ==> exists i :: 0 <= i < |s| && KeyedBy(s[i], subscriptionId, period)
                        && (forall j :: 0 <= j < i ==> !KeyedBy(s[j], subscriptionId, period))
                        && r.value.1 == s[i] + patch
                        && r.value.0 == s[i := s[i] + patch]
  {
    match Seqs.FirstIndex(s, (u: Usage) => KeyedBy(u, subscriptionId, period))
    case None => Err("Usage record not found")
    case Some(i) => Ok((s[i := s[i] + patch], s[i] + patch))
  }

  /** Creating the same usage twice in one month stores two records under the
      same key, and a later `update` reaches only the first of them. */
  lemma {:induction false} DuplicateKeyShadowed(s: seq<Usage>, data: Usage, month: string, patch: Usage)
    requires forall i :: 0 <= i < |s| ==> !KeyedBy(s[i], Prop(data, "subscriptionId"), Some(Str(month)))
    ensures var s2 := Create(Create(s, data, month).0, data, month).0;
            var r := Update(s2, Prop(data, "subscriptionId"), Some(Str(month)), patch);
            r.Ok? && r.value.0[|s| + 1] == s2[|s| + 1] && r.value.0[|s|] == s2[|s|] + patch
  {
    var u := Create(s, data, month).1;
    var s2 := Create(Create(s, data, month).0, data, month).0;
    assert Prop(u, "subscriptionId") == Prop(data, "subscriptionId") by {
      assert "subscriptionId" != "period" ==> ("subscriptionId" in u <==> "subscriptionId" in data);
    }
    assert KeyedBy(s2[|s|], Prop(data, "subscriptionId"), Some(Str(month)));
    var r := Update(s2, Prop(data, "subscriptionId"), Some(Str(month)), patch);
    var i :| 0 <= i < |s2| && KeyedBy(s2[i], Prop(data, "subscriptionId"), Some(Str(month)))
             && (forall j :: 0 <= j < i ==> !KeyedBy(s2[j], Prop(data, "subscriptionId"), Some(Str(month))))
             && r.value.0 == s2[i := s2[i] + patch];
    assert i == |s|;
  }
}

=== FILE: wrappers.dfy ===
/** Optional values and results shared by every module of the model.
    `Option` stands for a JavaScript value that may be `undefined`;
    `Result` stands for an operation that either returns or throws an
    `Error` whose message is the carried string. */
module Wrappers {

  datatype Option<+T> = None | Some(value: T) {

    /** The value when present, otherwise `default` (JavaScript's `x ?? d`). */
    function GetOr(default: T): T {
      match this
      case Some(v) => v
      case None => default
    }
  }

  datatype Result<+T> = Ok(value: T) | Err(message: string)
}
